=== FILE: README.md ===
# Combination lock of the locklove greeting page, modelled in Dafny

The page shows a five-dial combination lock. Every gesture moves one dial by
a signed number of steps through `nudge`, which wraps the digit with
`clampDigit`, and then runs `checkUnlock`. That comparison opens the lock when
the dials read `TARGET_CODE = [0, 9, 5, 4, 6]`. The supported gestures are a
wheel turn, an arrow key, a click on the upper or lower half of a dial, a
vertical drag, and a tap or hold on the dial's up and down buttons. A well-formed
`code` query parameter presets the dials on load. The share button copies a
link that carries the dials as `values.join("")`, and the shuffle button
draws random digits.

The model covers that integer core of `script.js`, in these modules:

- `Digits` (digits.dfy): `clampDigit` with JavaScript's truncating `%`, and `nudge` restricted to the dial values.
- `Code` (code.dfy): the target, the result of `checkUnlock`, `setFromQuery`, the share code and `randomize`.
- `LockState` (lock.dfy): the dial values together with the card's "unlocked" state. `Step` is the `nudge` + `checkUnlock` pair that every gesture performs.
- `Gestures` (gestures.dfy): the step logic of the wheel, key, click and drag handlers, including the drag accumulator `acc` with `STEP_PX = 18`.
- `Hold` (hold.dfy): the tap-versus-hold machine of the up and down buttons, in discrete time with one tick per millisecond. Every pending 300 ms `setTimeout` and 120 ms `setInterval` of a button is held as a countdown, including those that the closure variables `holdTimeout` and `holdInt` no longer name.
- `Page` (page.dfy): the whole page as one event-driven state machine, from the page load (`Init`) through every handler (`Handle`).

Three behaviours of the code that the model keeps as written:

- On load the page runs `setFromQuery(); render();` and never `checkUnlock`. So a link carrying the target shows it on a locked card until the first gesture. See `Page.LoadWithTargetStaysLocked`.
- `clampDigit`'s `(n + 10) % 10` wraps into 0..9 only for `n >= -10`; see Findings.
- The up and down buttons never track which pointer pressed them. Each keeps one `holdTimeout` and one `holdInt`. A second `pointerdown` overwrites `holdTimeout` (script.js:212-214), and `startHold` overwrites `holdInt` (script.js:197); neither clears the timer its variable named before. See Findings.

## Model

| member | source | states |
|---|---|---|
| Digits.JsRem10 | script.js:22 | the `%` of `(n + 10) % 10` is JavaScript's: a remainder of magnitude below 10, congruent to the dividend, with the dividend's sign |
| Digits.ClampDigit | script.js:21-23 | `clampDigit(n)` is congruent to `n` modulo 10 and lies in -9..9; it is a digit 0..9 whenever `n >= -10`, and never positive below that |
| Digits.WrapDigit | script.js:21-23 | the intended wrap-around: the unique digit 0..9 congruent to `n` modulo 10 |
| Digits.ClampAgreesWithWrap | script.js:21-23 | for every `n >= -10`, `clampDigit(n)` is exactly `n` modulo 10 |
| Digits.ClampLeavesRange | script.js:21-23 | below -10, `clampDigit(n)` is outside 0..9 exactly when `n` is not a multiple of 10, and it is then `n` modulo 10 minus 10 |
| Digits.Nudge | script.js:38-39 | `nudge(index, delta)` keeps the array length, changes no position but `index`, and moves `index` by `delta` modulo 10 (to the wrapped digit when the sum is at least -10) |
| Digits.NudgeKeepsDigits | script.js:38-39 | a nudge by any delta of at least -10 keeps in-range dials in range |
| Digits.NudgeInverse | script.js:38-39 | on a dial showing 0..9, `nudge(i, +1)` then `nudge(i, -1)`, or the reverse, restores the values |
| Digits.NudgeBack | script.js:38-39 | a nudge of one unit, up or down, on a dial showing 0..9 is undone by the opposite nudge |
| Digits.NudgeWrapsAtEdges | script.js:21-23 | 9 + 1 gives 0 and 0 - 1 gives 9 |
| Digits.NudgeCanLeaveRange | script.js:38-39 | `nudge(i, -11)` on a dial showing 0 leaves it at -1 |
| Digits.NudgeWrapped | script.js:38-39 | the corrected nudge: same frame as `nudge`, and the dial is always a digit 0..9 congruent to its old value plus `delta` |
| Digits.NudgeWrappedAgrees | script.js:38-39 | the corrected nudge equals the script's whenever the dial plus delta is at least -10, which covers every one-step gesture on an in-range dial |
| Code.TargetIsDigits | script.js:1 | the target has five entries, each a digit 0..9 |
| Code.CheckUnlock | script.js:117-118 | on five dials, `checkUnlock`'s result is true exactly when the dials equal `TARGET_CODE` element-wise |
| Code.CheckUnlockIsPrefix | script.js:117-118 | for any number of dials, `values.every((v, i) => v === TARGET_CODE[i])` holds exactly when the dials are a prefix of the target |
| Code.DigitsOf | script.js:159 | splitting a string of ASCII digits and applying `Number` gives one digit 0..9 per character, spelling that character |
| Code.SetFromQuery | script.js:155-161 | a present code of exactly five ASCII digits replaces the dials with those digits in order; an absent, empty or malformed code leaves them unchanged |
| Code.NatToString | script.js:166 | `String(n)` of a natural number is non-empty and all ASCII digits; it is one character long exactly when `n <= 9`, and starts with `0` only for `n == 0` |
| Code.NatToStringValue | script.js:166 | read back in decimal, `String(n)` is `n` again |
| Code.IntToString | script.js:166 | `String(n)` of an integer starts with `-` when negative, and is a single ASCII digit exactly when `n` is 0..9 |
| Code.JoinDigits | script.js:166 | `values.join("")` of in-range dials is one ASCII digit per dial, spelling each dial in order |
| Code.JoinLength | script.js:166 | a join is never shorter than the number of values, and a join of that exact length made of ASCII digits comes from in-range values |
| Code.ShareRoundTrip | script.js:155-166 | sharing in-range dials gives a code `setFromQuery` accepts, and it restores the same dials |
| Code.ParseShareRoundTrip | script.js:155-166 | a well-formed code, parsed and then joined again, is the same string |
| Code.ShareableIffDigits | script.js:155-166 | the shared code of five dials passes `^\d{5}$` exactly when every dial is 0..9 |
| Code.DrawDigit | script.js:151 | `Math.floor(r * 10)` of a draw in [0, 1) is a digit 0..9 |
| Code.Randomize | script.js:150-153 | `randomize` keeps the number of dials, and each dial becomes the floor of ten times its draw, a digit 0..9 |
| Code.RandomizeReachesEvery | script.js:150-151 | every combination of digits is produced by some choice of draws |
| LockState.Check | script.js:117-142 | `checkUnlock` leaves the dials alone, and the unlocked state becomes "the dials equal the target" |
| LockState.Step | script.js:38-42 | a gesture's `nudge` + `checkUnlock` moves only its dial, by the delta modulo 10, and leaves the unlocked state equal to the comparison of the new dials |
| LockState.StepInverse | script.js:38-39 | a step up and a step down on an in-range dial cancel out, in either order |
| Gestures.WheelStep | script.js:326 | `Math.sign(-deltaY)` is 0 exactly for a zero delta, +1 exactly for a negative one, -1 exactly for a positive one |
| Gestures.OnWheel | script.js:322-333 | a zero wheel delta changes nothing; a negative one steps up and a positive one steps down, with the comparison |
| Gestures.OnKey | script.js:305-320 | ArrowUp steps up, ArrowDown steps down, Enter only runs the comparison, and every other key changes nothing |
| Gestures.ClickStep | script.js:282-301 | a dial click always steps by one; it steps up exactly on the up control or on the upper half of the face |
| Gestures.OnClick | script.js:282-303 | the up control steps up, the down control steps down, and the face steps up above half height and down otherwise, each followed by the comparison |
| Gestures.TruncSteps | script.js:350 | `Math.trunc(d / 18)` steps leave less than one step of `d` unaccounted for and never overshoot `d` |
| Gestures.PointerDown | script.js:340-346 | `pointerdown` starts a drag at the pointer's `clientY` with `acc = 0` |
| Gestures.PointerEnd | script.js:357-366 | `pointerup` and `pointercancel` end the drag and reset `acc` to 0 |
| Gestures.DragMove | script.js:347-356 | outside a drag a move does nothing; inside one, `acc` grows by `steps * 18`, ends within 18 px of `dy`, moves toward `dy` and never overshoots it, and stays a multiple of 18 |
| Gestures.OnPointerMove | script.js:347-356 | a drag move with steps nudges its dial by them, congruent modulo 10, and runs the comparison; a move without steps changes nothing |
| Gestures.DragAccCountsSteps | script.js:336-356 | after any moves since `pointerdown`, `acc` equals 18 times the sum of the steps nudged, is a multiple of 18, and is within 18 px of the last `dy` |
| Gestures.DragCanLeaveRange | script.js:347-356 | a single move 198 px below `pointerdown` yields -11 steps and leaves a dial that showed 0 at -1 |
| Gestures.DragSession | script.js:340-356 | a whole drag leaves its dial congruent, modulo 10, to its start plus the total steps, moves no other dial, keeps `acc` at 18 times the steps and within 18 px of the last pointer offset, and reports in `moved` whether any move yielded steps: if none did, the lock is untouched; if any did, the unlocked state is the comparison on the final dials, even when the dial ended where it began |
| Hold.Press | script.js:212-216 | `pointerdown` clears `holdStarted` and arms a new 300 ms hold timeout, which `holdTimeout` then names; every timer armed before keeps running |
| Hold.TickStepsWhenDue | script.js:193-214 | a millisecond steps once per pending timer that falls due: no step exactly when every timer is more than 1 ms away, and one per timer exactly when all of them fall due |
| Hold.TickKeepsRepeats | script.js:193-201 | in one millisecond every running repeat survives: a due one steps and re-arms for 120 ms, any other comes 1 ms closer; each due hold timeout steps, starts a new 120 ms repeat that `holdInt` then names, and marks the hold started |
| Hold.TickCountsDown | script.js:193-214 | in one millisecond the due hold timeouts are gone and every other comes 1 ms closer, keeping its place in firing order; `holdTimeout` names a pending timer afterwards exactly when its timer was pending and not due; a button with no timer pending takes no step |
| Hold.CountdownShifts | script.js:212-214 | of timeouts in firing order, the ones that fire are the oldest, and the `j`-th timeout left is the one that stood `Due` places further on, 1 ms closer |
| Hold.ReplayPending | script.js:193-227 | whatever presses, releases and milliseconds happen, a button's hold timeouts stay in firing order and none is more than 300 ms away, since each is armed for the same 300 ms |
| Hold.Release | script.js:202-224 | `clearHold` stops only the latest timeout and the latest repeat, and only if `holdTimeout` or `holdInt` still names them; older timers stay pending; the release steps once exactly when no hold had started |
| Hold.PressTimeline | script.js:193-216 | `n` ms after a press on an idle button there has been no step while `n < 300`; from 300 ms on, the hold has started and has taken `1 + (n - 300) / 120` steps, with one repeat pending |
| Hold.TapOrHold | script.js:193-224 | a press on an idle button released after `n` ms steps once if `n < 300` (on release) and otherwise `1 + (n - 300) / 120` times, with no step on release; no timer stays pending |
| Hold.ReleaseTwiceAfterTap | script.js:217-227 | two releases with no press between them each step after a tap, since `release` does not record that it ran |
| Hold.StrayReleaseSteps | script.js:217-227 | a release of a button never pressed steps once, and after a tap a second release (`pointerleave` after `pointerup`) steps again |
| Hold.ReleaseIfPressed | script.js:217-224 | the corrected release stops the same timers as `release`, and steps exactly when the hold timeout is still pending and no hold has started |
| Hold.ReleaseIfPressedSteps | script.js:193-224 | the corrected release steps never for an unpressed button or a second release, and keeps tap and hold at `PressSteps(n)` steps with the button idle afterwards |
| Hold.SecondPressLeaksRepeat | script.js:193-216 | two `pointerdown`s on an idle button, then a release at 300 ms: both timeouts fired (two steps), the release stops only one repeat, and the other then steps once every 120 ms for ever |
| Hold.DoublePressFires | script.js:193-216 | two hold timeouts armed in the same millisecond both fire at 300 ms, each stepping and starting its own repeat |
| Hold.PressCleared | script.js:202-214 | the corrected `pointerdown` runs `clearHold` first, so on a button with at most one timer pending, and that one named by `holdTimeout` or `holdInt`, it gives what a press of an idle button gives |
| Hold.TickKeepsOneTimer | script.js:193-201 | a millisecond never gives a button with at most one pending timer a second one |
| Hold.ClearedReleaseStopsAll | script.js:193-227 | with the corrected `pointerdown`, after any presses, releases and milliseconds at most one timer is pending, and a release leaves no timer pending |
| Hold.NudgeTimes | script.js:194-199 | `k` nudges of one unit on dial `i` change no other dial |
| Hold.NudgeTimesMovesDial | script.js:194-199 | `k` nudges of one unit, up (+1 each) or down (-1 each), move an in-range dial to its value plus or minus `k`, modulo 10 |
| Hold.NudgeTimesAdd | script.js:194-199 | `s` nudges followed by `k` more leave the same values as `s + k` nudges |
| Hold.Repeat | script.js:194-200 | `k` rounds of `nudge` + `checkUnlock` move no other dial, leave the lock as it was when `k = 0`, and otherwise leave the unlocked state equal to the comparison on the final values |
| Hold.RepeatIsSteps | script.js:194-200 | `k` rounds are exactly one more `LockState.Step` of one unit after `k - 1` rounds, so `Repeat` is the step sequence the timers run |
| Hold.RepeatMovesDial | script.js:194-200 | `k` rounds move an in-range dial to its value plus or minus `k`, modulo 10 |
| Hold.RepeatAdd | script.js:194-200 | `s` rounds followed by `k` more leave the same lock as `s + k` rounds, so the interleaving with the timers does not matter |
| Hold.HoldFor | script.js:193-216 | `n` ms into a press on a dial showing any value, no step has been taken while `n < 300`, and `1 + (n - 300) / 120` from then on; the lock is that many rounds of `nudge` + `checkUnlock`, a dial that showed 0..9 has moved by the count modulo 10, and no other dial has moved |
| Hold.PressAndRelease | script.js:188-230 | a press held for `n` ms then released is `PressSteps(n)` rounds of `nudge` + `checkUnlock` on its dial, whatever that dial showed; a dial showing 0..9 moves by that count modulo 10, upwards for an up button and downwards for a down button; no other dial moves, and the unlocked state is the comparison |
| Page.Init | script.js:513-515 | on load the dials spell the query's code when it is well-formed and are all 0 otherwise, the card is locked, and every drag and button is idle |
| Page.TickRow | script.js:193-201 | one millisecond advances every button's timers as `Hold.Tick` does, moves no dial whose button took no step, keeps in-range dials in range, counts no step exactly when no button stepped and then leaves the lock unchanged, and otherwise leaves the unlocked state equal to the comparison |
| Page.TickPage | script.js:193-216 | a millisecond of the page clock advances every up and down button's timers as `Hold.Tick` does, leaves the lock unchanged when no button steps, sets the unlocked state to the comparison whenever some button steps (even if the steps cancel out), and keeps in-range dials in range |
| Page.TickRowMovesDials | script.js:193-201 | in one millisecond every in-range dial moves by the steps its own button takes, in that button's direction, modulo 10 |
| Page.TicksAreEvents | script.js:193-201 | each millisecond of the page clock is one `Tick` event handled by the page |
| Page.HoldingTicks | script.js:193-216 | `n` ms after `pointerdown` on a page with every button idle, the pressed button stands where `Hold.PressTimeline` puts it, its dial has taken that many steps, no other dial or button and no drag has changed, and once the press has stepped the unlocked state is the comparison on the dials |
| Page.HoldingChecked | script.js:193-199 | once a press has stepped, the unlocked state is the comparison on the dials, and it still is a millisecond later |
| Page.PressHoldRelease | script.js:188-230 | on a page with every button idle, `pointerdown`, `n` ms of the page clock and a release move that button's dial by `PressSteps(n)` one-unit steps in its direction (modulo 10 when in range), move no other dial, and leave every button idle |
| Page.Handle | script.js:188-366 | every handler keeps five dials with whole-step accumulators, and never shows the unlocked state for a wrong combination |
| Page.ChangeIsChecked | script.js:188-366 | whenever an event changes the dials, the unlocked state afterwards is "the dials equal the target" |
| Page.OtherDialsUnchanged | script.js:188-366 | a dial's or a button's event moves no other dial; a press, a drag start or end moves none |
| Page.ShareChangesNothing | script.js:164-171 | the share button leaves the page's state unchanged |
| Page.DigitsStayInRange | script.js:188-333 | every event except a drag move keeps in-range dials in range |
| Page.DragMoveLeavesRange | script.js:336-356 | a drag from 0 to 198 px leaves a dial that showed 0 at -1, and the share link then carries a code the page rejects |
| Page.LoadWithTargetStaysLocked | script.js:513-515 | loading with `code=09546` shows the target on a locked card, and Enter then unlocks |
| Page.ShareLinkRestores | script.js:155-166 | loading a link shared from in-range dials shows the same dials |

## Left out

- Rendering, the reel transforms, `wobble`, `pulse`, `shake`, `animateShine`, the mouse parallax, `fitCanvas` and the background particles: these only draw.
- `playTick` and the rest of WebAudio, `navigator.vibrate`, and the clipboard write in `copyShare`: these are foreign calls whose failures do not touch the modelled state. Only the code that goes into the link (`values.join("")`) is modelled. Building the URL with `URL` and `searchParams` is not.
- Parsing `location.search` with `URLSearchParams`: the decoded `code` value is the model's input.
- The confetti, hearts, heart morph and firework effects, `heartPoint`, the easing and the celebration timeline that `checkUnlock` starts on a match: these are floating-point canvas numerics driven by `Math.random` and timers. The model keeps only the comparison's result and the unlocked state.
- Real timers and `requestAnimationFrame`: time is a discrete one-millisecond `Tick`. Timers due in the same millisecond fire in a fixed order: up buttons by dial, then down buttons.
- DOM event propagation and pointer capture: the up and down buttons sit inside their dial, so a real tap on a button also reaches the dial's `pointerdown` and `click` handlers. The model treats each event as reaching only the handler it names.
- Gestures.DragMove: `clientY` and the wheel's `deltaY` are integers here. Fractional pixel positions and floating-point rounding are not modelled.
- Code.NatToString: the spelling is exact decimal only, as `String` gives it below 10^21. JavaScript writes larger numbers in exponent form, but the dials here never leave -9..9, so only one-digit magnitudes are ever spelled.
- Code.Randomize: `Math.random()` draws are real numbers in [0, 1), and the floating-point product `r * 10` is taken as exact.
- Digits.Nudge: requires an index inside the array. The script's handlers only pass the indices of existing dials; an index past the end would grow the array with `NaN`.
- Hold.PressTimeline, Hold.TapOrHold, Hold.HoldFor, Hold.PressAndRelease and Page.PressHoldRelease: start from buttons with no timer pending. Presses that overlap on one button are covered only by `Hold.SecondPressLeaksRepeat`, for two presses in the same millisecond.
- The particle life-counter and heart-morph convergence properties: they belong to the particle simulators, which are left out as above.

## Findings

| source | as written | input that shows it | evidently intended | confidence | as-written member | corrected member |
|---|---|---|---|---|---|---|
| script.js:21-23 | `clampDigit(n)` is `(n + 10) % 10` with JavaScript's truncating `%`, which is negative for `n < -10` unless `n` is a multiple of 10; the drag handler (script.js:350-353) passes `nudge` an unbounded `steps` | a dial showing 0, `pointerdown` at `clientY = 0`, then one `pointermove` at `clientY = 198`: `steps = -11`, the dial shows -1, and the share link's code `0-1...` fails `^\d{5}$` | every dial wraps modulo 10 into 0..9 whatever the step | medium: needs a 198 px jump between two move events; not executed | Gestures.DragCanLeaveRange | Digits.NudgeWrapped |
| script.js:193-216 | `pointerdown` assigns `holdTimeout` and `startHold` assigns `holdInt` without clearing the timer each named before, and `clearHold` stops only the named ones | two `pointerdown`s on one up button (a second finger) in the same millisecond, then `pointerup` at 300 ms: both timeouts fire and start a repeat each, the release stops one, and the other nudges the dial every 120 ms with no pointer down; no later release names it | every release stops all of the button's timers, as clearing before arming would ensure | medium: needs two pointers on one button; not executed | Hold.SecondPressLeaksRepeat | Hold.ClearedReleaseStopsAll |
| script.js:217-227 | `release` runs on `pointerleave` too, and steps whenever `holdStarted` is false, which it is before any press and after a tap | a mouse pointer that moves across an up button without pressing: `pointerleave` runs `release` and the dial steps up; likewise a `pointerleave` after a tap steps a second time | only a press that has not become a hold steps on release | medium: follows from the handlers as written; not executed | Hold.StrayReleaseSteps | Hold.ReleaseIfPressedSteps |

The event handlers of `Gestures`, `Hold` and `Page` follow the script as
written and use `Digits.Nudge`. `Digits.NudgeWrappedAgrees` shows that the
corrected `Digits.NudgeWrapped` gives the same result on every gesture except
a drag step below -10 − (the dial's value). So replacing `clampDigit` with the
corrected wrap changes only the drag behaviour that the finding describes.

Likewise the buttons follow the script's `pointerdown` and `release`. The
corrected `Hold.PressCleared` equals the script's press on any idle button
(no timer pending), which is where `Page.PressHoldRelease` starts. The
corrected `Hold.ReleaseIfPressed` stops the same timers as `release` and
differs only in the stray step.

=== FILE: code.dfy ===
/**
 The combination itself: the fixed target, the unlock comparison
 (`checkUnlock`'s result), reading a code from the `code` query parameter
 (`setFromQuery`), writing one for a share link (`copyShare`'s
 `values.join("")`) and the shuffle button's `randomize`.
 */
module Code {
  import opened Wrappers
  import opened Digits

  /** The combination that opens the lock. */
  const TARGET_CODE: seq<int> := [0, 9, 5, 4, 6]

  /** The number of dials, the length the `code` parameter must have. */
  const CODE_LENGTH: nat := 5

  /**
   `values.every((v, i) => v === TARGET_CODE[i])`: every dial that exists
   matches the target at its position (a position past the target's end
   compares against `undefined` and fails).
   */
  function CheckUnlock(values: seq<int>): (r: bool)
    ensures |values| == CODE_LENGTH ==> (r <==> values == TARGET_CODE)
  {
    forall i :: 0 <= i < |values| ==> TargetAt(i) == Some(values[i])
  }

  /** `TARGET_CODE[i]`, which is `undefined` past the target's end. */
  function TargetAt(i: nat): Option<int> {
    if i < |TARGET_CODE| then Some(TARGET_CODE[i]) else None
  }

  /**
   Whatever the number of dials, the comparison passes exactly when the dials
   spell a prefix of the target: more dials than the target has never unlock,
   since the extra dial meets `undefined`.
   */
  lemma CheckUnlockIsPrefix(values: seq<int>)
    ensures CheckUnlock(values) <==> values <= TARGET_CODE
  {
    if |values| > |TARGET_CODE| {
      assert TargetAt(|TARGET_CODE|) != Some(values[|TARGET_CODE|]);
    }
  }

  /** The target is itself a combination of in-range digits. */
  lemma TargetIsDigits()
    ensures |TARGET_CODE| == CODE_LENGTH && AllDigits(TARGET_CODE)
  {
  }

  /** What `\d` matches: an ASCII decimal digit. */
  predicate IsAsciiDigit(c: char) {
    '0' <= c <= '9'
  }

  /** The character that spells digit `d`. */
  function DigitChar(d: int): (c: char)
    requires IsDigit(d)
    ensures IsAsciiDigit(c)
    ensures c as int - '0' as int == d
  {
    ('0' as int + d) as char
  }

  /** The test `/^\d{5}$/.test(code)`: exactly five ASCII digits and nothing else. */
  predicate MatchesCode(s: string) {
    |s| == CODE_LENGTH && forall k :: 0 <= k < |s| ==> IsAsciiDigit(s[k])
  }

  /** `code.split("").map((c) => Number(c))` on a string of ASCII digits. */
  function DigitsOf(s: string): (r: seq<int>)
    requires forall k :: 0 <= k < |s| ==> IsAsciiDigit(s[k])
    ensures |r| == |s| && AllDigits(r)
    ensures forall k :: 0 <= k < |s| ==> DigitChar(r[k]) == s[k]
  {
    var r := seq(|s|, k requires 0 <= k < |s| => s[k] as int - '0' as int);
    assert forall k :: 0 <= k < |s| ==> IsAsciiDigit(s[k]) && r[k] == s[k] as int - '0' as int;
    r
  }

  /**
   `setFromQuery` on the dial values: a present code of exactly five ASCII
   digits replaces them; an absent, empty or otherwise malformed code leaves
   them as they were.
   */
  function SetFromQuery(values: seq<int>, code: Option<string>): (r: seq<int>)
    ensures code.Some? && MatchesCode(code.value) ==>
              |r| == CODE_LENGTH && AllDigits(r) &&
              forall k :: 0 <= k < CODE_LENGTH ==> DigitChar(r[k]) == code.value[k]
    ensures !(code.Some? && MatchesCode(code.value)) ==> r == values
  {
    if code.Some? && code.value != "" && MatchesCode(code.value) then DigitsOf(code.value) else values
  }

  /** `String(n)` for a natural number: decimal digits, no leading zero. */
  function NatToString(n: nat): (s: string)
    ensures |s| >= 1
    ensures forall k :: 0 <= k < |s| ==> IsAsciiDigit(s[k])
    ensures |s| == 1 <==> n <= 9
    ensures n <= 9 ==> s == [DigitChar(n)]
    ensures s[0] == '0' <==> n == 0
    decreases n
  {
    if n < 10 then [DigitChar(n)] else NatToString(n / 10) + [DigitChar(n % 10)]
  }

  /** The number a string of ASCII digits spells in decimal, most significant first. */
  function DecimalValue(s: string): int
    requires forall k :: 0 <= k < |s| ==> IsAsciiDigit(s[k])
  {
    if |s| == 0 then 0 else DecimalValue(s[..|s| - 1]) * 10 + (s[|s| - 1] as int - '0' as int)
  }

  /** Read back in decimal, `String(n)` is `n` again. */
  lemma {:induction false} NatToStringValue(n: nat)
    ensures DecimalValue(NatToString(n)) == n
  {
    if n >= 10 {
      var s := NatToString(n);
      NatToStringValue(n / 10);
      assert s[..|s| - 1] == NatToString(n / 10);
    }
  }

  /** `String(n)` for an integer: a minus sign before the magnitude when negative. */
  function IntToString(n: int): (s: string)
    ensures |s| >= 1
    ensures n < 0 ==> s[0] == '-'
    ensures (|s| == 1 && IsAsciiDigit(s[0])) <==> IsDigit(n)
    ensures IsDigit(n) ==> s == [DigitChar(n)]
  {
    if n < 0 then "-" + NatToString(-n) else NatToString(n)
  }

  /** `values.join("")`: the decimal spellings of the values, concatenated. */
  function Join(values: seq<int>): (s: string)
  {
    if |values| == 0 then "" else IntToString(values[0]) + Join(values[1..])
  }

  /** The code `copyShare` writes into the share link. */
  function Serialize(values: seq<int>): string {
    Join(values)
  }

  /** In-range values join to one ASCII digit per dial. */
  lemma {:induction false} JoinDigits(values: seq<int>)
    requires AllDigits(values)
    ensures |Join(values)| == |values|
    ensures forall k :: 0 <= k < |values| ==> Join(values)[k] == DigitChar(values[k])
  {
    if |values| > 0 {
      JoinDigits(values[1..]);
    }
  }

  /**
   Every value spells at least one character, and a join no longer than the
   number of values made only of ASCII digits comes from in-range values.
   */
  lemma {:induction false} JoinLength(values: seq<int>)
    ensures |Join(values)| >= |values|
    ensures (|Join(values)| == |values| && forall k :: 0 <= k < |Join(values)| ==> IsAsciiDigit(Join(values)[k]))
            ==> AllDigits(values)
  {
    if |values| > 0 {
      var head := IntToString(values[0]);
      var tail := Join(values[1..]);
      JoinLength(values[1..]);
      assert Join(values) == head + tail;
      if |Join(values)| == |values| && (forall k :: 0 <= k < |Join(values)| ==> IsAsciiDigit(Join(values)[k])) {
        assert |head| == 1;
        assert Join(values)[0] == head[0];
        assert forall k :: 0 <= k < |tail| ==> tail[k] == Join(values)[k + 1];
        assert IsDigit(values[0]);
        forall j | 0 <= j < |values|
          ensures IsDigit(values[j])
        {
          if j > 0 {
            assert values[j] == values[1..][j - 1];
          }
        }
      }
    }
  }

  /** Round trip: sharing in-range dials and opening the link restores them. */
  lemma ShareRoundTrip(values: seq<int>, before: seq<int>)
    requires |values| == CODE_LENGTH && AllDigits(values)
    ensures MatchesCode(Serialize(values))
    ensures SetFromQuery(before, Some(Serialize(values))) == values
  {
    JoinDigits(values);
    var r := SetFromQuery(before, Some(Serialize(values)));
    forall k | 0 <= k < CODE_LENGTH
      ensures r[k] == values[k]
    {
      assert DigitChar(r[k]) == DigitChar(values[k]);
    }
  }

  /** The other way round: a well-formed code, parsed and shared again, is the same string. */
  lemma ParseShareRoundTrip(code: string, before: seq<int>)
    requires MatchesCode(code)
    ensures Serialize(SetFromQuery(before, Some(code))) == code
  {
    var values := SetFromQuery(before, Some(code));
    JoinDigits(values);
  }

  /**
   A five-dial share link carries a code `setFromQuery` accepts exactly when
   every dial is in range; a dial left negative by a drag spoils the link.
   */
  lemma ShareableIffDigits(values: seq<int>)
    requires |values| == CODE_LENGTH
    ensures MatchesCode(Serialize(values)) <==> AllDigits(values)
  {
    JoinLength(values);
    if AllDigits(values) {
      JoinDigits(values);
    }
  }

  /** `Math.floor(r * 10)` for a draw `r` of `Math.random()`, which lies in [0, 1). */
  function DrawDigit(r: real): (d: int)
    requires 0.0 <= r < 1.0
    ensures IsDigit(d)
    ensures d as real <= r * 10.0 < d as real + 1.0
  {
    (r * 10.0).Floor
  }

  /** `randomize`: each dial becomes the digit drawn for it. */
  function Randomize(values: seq<int>, draws: seq<real>): (r: seq<int>)
    requires |draws| == |values|
    requires forall k :: 0 <= k < |draws| ==> 0.0 <= draws[k] < 1.0
    ensures |r| == |values| && AllDigits(r)
    ensures forall k :: 0 <= k < |r| ==> r[k] as real <= draws[k] * 10.0 < r[k] as real + 1.0
  {
    seq(|values|, k requires 0 <= k < |values| => DrawDigit(draws[k]))
  }

  /** Every combination of in-range digits is one the shuffle can produce. */
  lemma RandomizeReachesEvery(values: seq<int>, target: seq<int>)
    requires |target| == |values| && AllDigits(target)
    ensures var draws := seq(|target|, k requires 0 <= k < |target| => target[k] as real / 10.0);
            (forall k :: 0 <= k < |draws| ==> 0.0 <= draws[k] < 1.0) &&
            Randomize(values, draws) == target
  {
    var draws := seq(|target|, k requires 0 <= k < |target| => target[k] as real / 10.0);
    var r := Randomize(values, draws);
    forall k | 0 <= k < |target|
      ensures r[k] == target[k]
    {
      assert draws[k] * 10.0 == target[k] as real;
    }
  }
}

=== FILE: digits.dfy ===
/**
 The dial digits of the combination lock and the one primitive that changes
 them: `clampDigit` and `nudge` from script.js.

 JavaScript's `%` truncates toward zero (the remainder takes the sign of the
 dividend), whereas Dafny's `%` is Euclidean. `JsRem10` writes the JavaScript
 operator out, and `ClampDigit` is built on it exactly as the script builds
 `clampDigit` on `%`.
 */
module Digits {

  /** True when `n` is a single decimal digit, the intended range of a dial. */
  predicate IsDigit(n: int) {
    0 <= n <= 9
  }

  /** True when every dial holds a single decimal digit. */
  predicate AllDigits(values: seq<int>) {
    forall j :: 0 <= j < |values| ==> IsDigit(values[j])
  }

  /** JavaScript's remainder `a % 10`: truncating, with the sign of `a`. */
  function JsRem10(a: int): (r: int)
    ensures -10 < r < 10
    ensures (a - r) % 10 == 0
    ensures a >= 0 ==> r >= 0
    ensures a <= 0 ==> r <= 0
  {
    if a >= 0 then a % 10 else -((-a) % 10)
  }

  /**
   `clampDigit(n)` as written: `(n + 10) % 10` with the truncating `%`.
   It is congruent to `n` modulo 10 and is a digit whenever `n >= -10`;
   below that it is negative unless `n` is a multiple of 10.
   */
  function ClampDigit(n: int): (r: int)
    ensures -9 <= r <= 9
    ensures (r - n) % 10 == 0
    ensures n >= -10 ==> IsDigit(r)
    ensures n < -10 ==> r <= 0
  {
    JsRem10(n + 10)
  }

  /** The wrap-around the dial is meant to have: `n` modulo 10, always a digit. */
  function WrapDigit(n: int): (r: int)
    ensures IsDigit(r)
    ensures (r - n) % 10 == 0
  {
    n % 10
  }

  /** The digit congruent to `n` modulo 10 is unique. */
  lemma WrapDigitUnique(n: int, d: int)
    requires IsDigit(d) && (d - n) % 10 == 0
    ensures WrapDigit(n) == d
  {
  }

  /** Wrapping an intermediate sum does not change the final wrap. */
  lemma WrapDigitAdd(a: int, d: int)
    ensures WrapDigit(WrapDigit(a) + d) == WrapDigit(a + d)
  {
    WrapDigitUnique(WrapDigit(a) + d, WrapDigit(a + d));
  }

  /** `ClampDigit` is the intended wrap-around on every input of at least -10. */
  lemma ClampAgreesWithWrap(n: int)
    requires n >= -10
    ensures ClampDigit(n) == WrapDigit(n)
  {
    WrapDigitUnique(n, ClampDigit(n));
  }

  /** Below -10, `ClampDigit` leaves the digit range exactly when `n` is not a multiple of 10. */
  lemma ClampLeavesRange(n: int)
    requires n < -10
    ensures !IsDigit(ClampDigit(n)) <==> n % 10 != 0
    ensures n % 10 != 0 ==> ClampDigit(n) == WrapDigit(n) - 10
  {
    var m := -(n + 10);
    assert m > 0 && ClampDigit(n) == -(m % 10);
    if n % 10 != 0 {
      WrapDigitUnique(n, ClampDigit(n) + 10);
    }
  }

  /**
   `nudge(index, delta)` restricted to its effect on `values`: position
   `index` moves by `delta` through `ClampDigit`; nothing else changes.
   */
  function Nudge(values: seq<int>, index: nat, delta: int): (r: seq<int>)
    requires index < |values|
    ensures |r| == |values|
    ensures forall j :: 0 <= j < |r| && j != index ==> r[j] == values[j]
    ensures (r[index] - values[index] - delta) % 10 == 0
    ensures values[index] + delta >= -10 ==> r[index] == WrapDigit(values[index] + delta)
  {
    ClampAgreesWithWrapAll();
    values[index := ClampDigit(values[index] + delta)]
  }

  /** `ClampAgreesWithWrap` for every input at once. */
  lemma ClampAgreesWithWrapAll()
    ensures forall n :: n >= -10 ==> ClampDigit(n) == WrapDigit(n)
  {
    forall n | n >= -10
      ensures ClampDigit(n) == WrapDigit(n)
    {
      ClampAgreesWithWrap(n);
    }
  }

  /** A step of at most ten downwards keeps an in-range dial in range. */
  lemma NudgeKeepsDigits(values: seq<int>, index: nat, delta: int)
    requires index < |values| && AllDigits(values)
    requires delta >= -10
    ensures AllDigits(Nudge(values, index, delta))
  {
  }

  /** Up then down, or down then up, on an in-range digit restores the dials. */
  lemma NudgeInverse(values: seq<int>, index: nat)
    requires index < |values| && IsDigit(values[index])
    ensures Nudge(Nudge(values, index, 1), index, -1) == values
    ensures Nudge(Nudge(values, index, -1), index, 1) == values
  {
    NudgeBack(values, index, 1);
    NudgeBack(values, index, -1);
  }

  /** A nudge of one unit on an in-range digit is undone by the opposite nudge. */
  lemma NudgeBack(values: seq<int>, index: nat, delta: int)
    requires index < |values| && IsDigit(values[index]) && (delta == 1 || delta == -1)
    ensures Nudge(Nudge(values, index, delta), index, -delta) == values
  {
    var moved := Nudge(values, index, delta);
    WrapDigitUnique(moved[index] - delta, values[index]);
    assert Nudge(moved, index, -delta)[index] == values[index];
  }

  /** The wrap-around edges: 9 + 1 gives 0 and 0 - 1 gives 9. */
  lemma NudgeWrapsAtEdges(values: seq<int>, index: nat)
    requires index < |values|
    ensures values[index] == 9 ==> Nudge(values, index, 1)[index] == 0
    ensures values[index] == 0 ==> Nudge(values, index, -1)[index] == 9
  {
  }

  /** A single nudge of -11 on a zero dial leaves the digit range: the dial reads -1. */
  lemma NudgeCanLeaveRange(values: seq<int>, index: nat)
    requires index < |values| && values[index] == 0
    ensures Nudge(values, index, -11)[index] == -1
  {
  }

  /** The corrected nudge: position `index` wraps with `WrapDigit` whatever the delta. */
  function NudgeWrapped(values: seq<int>, index: nat, delta: int): (r: seq<int>)
    requires index < |values|
    ensures |r| == |values|
    ensures forall j :: 0 <= j < |r| && j != index ==> r[j] == values[j]
    ensures IsDigit(r[index]) && (r[index] - values[index] - delta) % 10 == 0
    ensures AllDigits(values) ==> AllDigits(r)
  {
    values[index := WrapDigit(values[index] + delta)]
  }

  /** The corrected nudge coincides with the script's on every step the buttons, keys, wheel and clicks make. */
  lemma NudgeWrappedAgrees(values: seq<int>, index: nat, delta: int)
    requires index < |values|
    requires values[index] + delta >= -10
    ensures NudgeWrapped(values, index, delta) == Nudge(values, index, delta)
  {
  }
}

=== FILE: gestures.dfy ===
/**
 The per-dial gesture handlers of script.js, reduced to their step logic:
 the wheel, the arrow and Enter keys, a click on the dial, and the vertical
 drag with its pixel accumulator. Each handler that moves a dial then runs
 the unlock comparison (`LockState.Step`).
 */
module Gestures {
  import opened Digits
  import opened Code
  import opened LockState

  /** `Math.sign(-deltaY)`: scrolling up (negative delta) steps up, down steps down. */
  function WheelStep(deltaY: int): (step: int)
    ensures step == 0 <==> deltaY == 0
    ensures step == 1 <==> deltaY < 0
    ensures step == -1 <==> deltaY > 0
  {
    if deltaY < 0 then 1 else if deltaY > 0 then -1 else 0
  }

  /** The wheel handler: a zero delta changes nothing; otherwise one step in the wheel's direction. */
  function OnWheel(lock: Lock, i: nat, deltaY: int): (r: Lock)
    requires i < |lock.values|
    ensures deltaY == 0 ==> r == lock
    ensures deltaY < 0 ==> r == Step(lock, i, 1)
    ensures deltaY > 0 ==> r == Step(lock, i, -1)
  {
    var step := WheelStep(deltaY);
    if step != 0 then Step(lock, i, step) else lock
  }

  /**
   The keydown handler: ArrowUp steps up, ArrowDown steps down, Enter only
   re-runs the comparison, and any other key is ignored.
   */
  function OnKey(lock: Lock, i: nat, key: string): (r: Lock)
    requires i < |lock.values|
    ensures key == "ArrowUp" ==> r == Step(lock, i, 1)
    ensures key == "ArrowDown" ==> r == Step(lock, i, -1)
    ensures key == "Enter" ==> r == Check(lock)
    ensures key != "ArrowUp" && key != "ArrowDown" ==> r.values == lock.values
    ensures key != "ArrowUp" && key != "ArrowDown" && key != "Enter" ==> r == lock
  {
    if key == "ArrowUp" then Step(lock, i, 1)
    else if key == "ArrowDown" then Step(lock, i, -1)
    else if key == "Enter" then Check(lock)
    else lock
  }

  /**
   Where a click on a dial lands: inside its up control, inside its down
   control, or on the face at height `y` below the top of a dial `height` tall.
   */
  datatype ClickTarget = UpControl | DownControl | Face(y: real, height: real)

  /** The click handler's direction: the up control or the upper half steps up, anything else down. */
  function ClickStep(target: ClickTarget): (step: int)
    ensures step == 1 || step == -1
    ensures step == 1 <==> target.UpControl? || (target.Face? && target.y < target.height / 2.0)
  {
    match target
    case UpControl => 1
    case DownControl => -1
    case Face(y, height) => if y < height / 2.0 then 1 else -1
  }

  /** The click handler: always exactly one step, then the comparison. */
  function OnClick(lock: Lock, i: nat, target: ClickTarget): (r: Lock)
    requires i < |lock.values|
    ensures target.UpControl? ==> r == Step(lock, i, 1)
    ensures target.DownControl? ==> r == Step(lock, i, -1)
    ensures target.Face? ==> r == Step(lock, i, if target.y < target.height / 2.0 then 1 else -1)
  {
    Step(lock, i, ClickStep(target))
  }

  /** Pixels of vertical drag per dial step. */
  const STEP_PX: int := 18

  /** `Math.trunc(d / STEP_PX)`: whole steps in `d` pixels, rounded toward zero. */
  function TruncSteps(d: int): (steps: int)
    ensures -STEP_PX < d - steps * STEP_PX < STEP_PX
    ensures d >= 0 ==> 0 <= steps * STEP_PX <= d
    ensures d <= 0 ==> d <= steps * STEP_PX <= 0
  {
    if d >= 0 then d / STEP_PX else -((-d) / STEP_PX)
  }

  /**
   One dial's drag bookkeeping: whether a drag is in progress, the pointer's
   `clientY` when it went down, and `acc`, the pixels already turned into steps.
   */
  datatype Drag = Drag(dragging: bool, startY: int, acc: int)

  /** Before any pointer has gone down on the dial. */
  const IDLE_DRAG: Drag := Drag(false, 0, 0)

  /** The accumulator only ever holds whole steps, and is zero outside a drag. */
  predicate DragInv(st: Drag) {
    st.acc % STEP_PX == 0 && (!st.dragging ==> st.acc == 0)
  }

  /** `pointerdown` on the dial: a drag starts at `y` with nothing accumulated. */
  function PointerDown(y: int): (st: Drag)
    ensures st.dragging && st.startY == y && st.acc == 0 && DragInv(st)
  {
    Drag(true, y, 0)
  }

  /** `pointerup` or `pointercancel`: the drag ends and the accumulator is cleared. */
  function PointerEnd(st: Drag): (r: Drag)
    ensures !r.dragging && r.acc == 0 && r.startY == st.startY && DragInv(r)
  {
    Drag(false, st.startY, 0)
  }

  /** The new drag state and the steps `pointermove` hands to `nudge`. */
  datatype Move = Move(state: Drag, steps: int)

  /**
   `pointermove` at `clientY == y`: outside a drag nothing happens; inside
   one, the distance `dy` travelled since `pointerdown` that is not yet
   accounted for is turned into whole steps toward `dy`, never past it, after
   which `acc` is within one step of `dy`.
   */
  function DragMove(st: Drag, y: int): (r: Move)
    ensures !st.dragging ==> r == Move(st, 0)
    ensures r.state.dragging == st.dragging && r.state.startY == st.startY
    ensures r.state.acc == st.acc + r.steps * STEP_PX
    ensures st.dragging ==> -STEP_PX < (st.startY - y) - r.state.acc < STEP_PX
    ensures st.dragging ==> var x := (st.startY - y) - st.acc;
              (x >= 0 ==> 0 <= r.steps * STEP_PX <= x) && (x <= 0 ==> x <= r.steps * STEP_PX <= 0)
    ensures DragInv(st) ==> DragInv(r.state)
  {
    if !st.dragging then Move(st, 0)
    else
      var dy := st.startY - y;
      var steps := TruncSteps(dy - st.acc);
      if steps != 0 then Move(st.(acc := st.acc + steps * STEP_PX), steps) else Move(st, 0)
  }

  /** The drag state after the pointer moves through `ys` in order. */
  function ReplayDrag(st: Drag, ys: seq<int>): Drag
    decreases |ys|
  {
    if |ys| == 0 then st else DragMove(ReplayDrag(st, ys[..|ys| - 1]), ys[|ys| - 1]).state
  }

  /** The steps handed to `nudge` while the pointer moves through `ys`. */
  function TotalSteps(st: Drag, ys: seq<int>): int
    decreases |ys|
  {
    if |ys| == 0 then 0
    else TotalSteps(st, ys[..|ys| - 1]) + DragMove(ReplayDrag(st, ys[..|ys| - 1]), ys[|ys| - 1]).steps
  }

  /** The steps that the `k`-th move of a drag started at `y0` hands to `nudge`. */
  function MoveSteps(y0: int, ys: seq<int>, k: nat): int
    requires k < |ys|
  {
    DragMove(ReplayDrag(PointerDown(y0), ys[..k]), ys[k]).steps
  }

  /** The `k`-th move takes the drag from its state after `k` moves to its state after `k + 1`. */
  lemma ReplayDragNext(y0: int, ys: seq<int>, k: nat, st: Drag)
    requires k < |ys| && st == ReplayDrag(PointerDown(y0), ys[..k])
    ensures DragMove(st, ys[k]).state == ReplayDrag(PointerDown(y0), ys[..k + 1])
    ensures DragMove(st, ys[k]).steps == MoveSteps(y0, ys, k)
  {
    assert ys[..k + 1][..k] == ys[..k];
  }

  /** Whether any of the first `k` moves of a drag started at `y0` hands steps to `nudge`. */
  function AnyMoveSteps(y0: int, ys: seq<int>, k: nat): bool
    requires k <= |ys|
  {
    k > 0 && (AnyMoveSteps(y0, ys, k - 1) || MoveSteps(y0, ys, k - 1) != 0)
  }

  /** `AnyMoveSteps` holds exactly when one of the first `k` moves yields steps. */
  lemma {:induction false} AnyMoveStepsIff(y0: int, ys: seq<int>, k: nat)
    requires k <= |ys|
    ensures AnyMoveSteps(y0, ys, k) <==> exists j :: 0 <= j < k && MoveSteps(y0, ys, j) != 0
  {
    if k > 0 {
      AnyMoveStepsIff(y0, ys, k - 1);
    }
  }

  /**
   The drag accumulator counts the steps: after any sequence of moves since
   `pointerdown`, `acc` is the sum of the steps nudged times `STEP_PX`, and
   after the last move it lies within one step of the distance dragged.
   */
  lemma {:induction false} DragAccCountsSteps(y0: int, ys: seq<int>)
    ensures var st := ReplayDrag(PointerDown(y0), ys);
            st.dragging && st.startY == y0 && DragInv(st) &&
            st.acc == TotalSteps(PointerDown(y0), ys) * STEP_PX &&
            (|ys| > 0 ==> -STEP_PX < (y0 - ys[|ys| - 1]) - st.acc < STEP_PX)
    decreases |ys|
  {
    if |ys| > 0 {
      DragAccCountsSteps(y0, ys[..|ys| - 1]);
    }
  }

  /** Congruences modulo 10 add up along a chain of steps. */
  lemma CongruenceChain(c: int, b: int, a: int, s: int, t: int)
    requires (c - b - s) % 10 == 0 && (b - a - t) % 10 == 0
    ensures (c - a - (t + s)) % 10 == 0
  {
    var q := (c - b - s) / 10;
    var p := (b - a - t) / 10;
    assert c - a - (t + s) == 10 * (q + p);
  }

  /**
   A single fast flick reaches the negative digits: on a dial showing 0, a
   pointer that moves 198 pixels down between two `pointermove` events yields
   eleven steps down at once, and the dial then shows -1.
   */
  lemma DragCanLeaveRange(lock: Lock, i: nat)
    requires i < |lock.values| && lock.values[i] == 0
    ensures OnPointerMove(lock, PointerDown(0), i, 198).total == -11
    ensures OnPointerMove(lock, PointerDown(0), i, 198).lock.values[i] == -1
  {
    assert TruncSteps(-198) == -11;
    NudgeCanLeaveRange(lock.values, i);
  }

  /** The result of a whole drag on one dial: the lock, the drag state and the steps nudged. */
  datatype Session = Session(lock: Lock, drag: Drag, total: int)

  /**
   The `pointermove` handler of dial `i`: the steps the drag yields, if any,
   nudge the dial and re-run the comparison; no other dial moves.
   */
  function OnPointerMove(lock: Lock, st: Drag, i: nat, y: int): (r: Session)
    requires i < |lock.values|
    ensures r.drag == DragMove(st, y).state && r.total == DragMove(st, y).steps
    ensures |r.lock.values| == |lock.values|
    ensures forall j :: 0 <= j < |lock.values| && j != i ==> r.lock.values[j] == lock.values[j]
    ensures (r.lock.values[i] - lock.values[i] - r.total) % 10 == 0
    ensures r.total == 0 ==> r.lock == lock
    ensures r.total != 0 ==> r.lock.unlocked == CheckUnlock(r.lock.values)
    ensures Sound(lock) ==> Sound(r.lock)
  {
    var m := DragMove(st, y);
    if m.steps != 0 then Session(Step(lock, i, m.steps), m.state, m.steps) else Session(lock, m.state, 0)
  }

  /**
   A drag on dial `i`: `pointerdown` at `y0`, then `pointermove` through `ys`.
   Each move that yields steps nudges the dial by them and re-runs the
   comparison. The dial ends congruent, modulo 10, to its start plus the
   steps, and no other dial moves. `moved` says whether any move yielded
   steps: if so the unlocked state is the comparison on the final values,
   even when the dial came back to where it started; if not, nothing changed.
   */
  method DragSession(lock: Lock, i: nat, y0: int, ys: seq<int>) returns (r: Session, moved: bool)
    requires i < |lock.values|
    ensures r.drag.dragging && r.drag.startY == y0 && DragInv(r.drag)
    ensures r.drag.acc == r.total * STEP_PX
    ensures |ys| > 0 ==> -STEP_PX < (y0 - ys[|ys| - 1]) - r.drag.acc < STEP_PX
    ensures |r.lock.values| == |lock.values|
    ensures forall j :: 0 <= j < |lock.values| && j != i ==> r.lock.values[j] == lock.values[j]
    ensures (r.lock.values[i] - lock.values[i] - r.total) % 10 == 0
    ensures moved <==> exists k :: 0 <= k < |ys| && MoveSteps(y0, ys, k) != 0
    ensures !moved ==> r.lock == lock && r.total == 0
    ensures moved ==> r.lock.unlocked == CheckUnlock(r.lock.values)
    ensures r.lock.values != lock.values ==> moved
    ensures Sound(lock) ==> Sound(r.lock)
  {
    var cur := lock;
    var st := PointerDown(y0);
    var total := 0;
    var k := 0;
    moved := false;
    while k < |ys|
      invariant 0 <= k <= |ys|
      invariant DragTrack(y0, ys, k, st, total, moved)
      invariant LockTrack(lock, i, cur, total, moved)
    {
      DragTrackStep(y0, ys, k, st, total, moved);
      LockTrackStep(lock, i, cur, st, ys[k], total, moved);
      var h := OnPointerMove(cur, st, i, ys[k]);
      cur := h.lock;
      moved := moved || h.total != 0;
      st := h.drag;
      total := total + h.total;
      k := k + 1;
    }
    r := Session(cur, st, total);
    AnyMoveStepsIff(y0, ys, |ys|);
  }

  /** The drag state and the steps of a session after its first `k` moves. */
  predicate DragTrack(y0: int, ys: seq<int>, k: nat, st: Drag, total: int, moved: bool)
    requires k <= |ys|
  {
    && st.dragging && st.startY == y0 && DragInv(st)
    && st.acc == total * STEP_PX
    && (k > 0 ==> -STEP_PX < (y0 - ys[k - 1]) - st.acc < STEP_PX)
    && st == ReplayDrag(PointerDown(y0), ys[..k])
    && moved == AnyMoveSteps(y0, ys, k)
  }

  /** One more `pointermove` keeps `DragTrack`. */
  lemma DragTrackStep(y0: int, ys: seq<int>, k: nat, st: Drag, total: int, moved: bool)
    requires k < |ys| && DragTrack(y0, ys, k, st, total, moved)
    ensures var m := DragMove(st, ys[k]);
            DragTrack(y0, ys, k + 1, m.state, total + m.steps, moved || m.steps != 0)
  {
    ReplayDragNext(y0, ys, k, st);
  }

  /** The lock during a session, against the lock it started from, after `total` steps. */
  predicate LockTrack(lock: Lock, i: nat, cur: Lock, total: int, moved: bool)
    requires i < |lock.values|
  {
    && |cur.values| == |lock.values|
    && (forall j :: 0 <= j < |lock.values| && j != i ==> cur.values[j] == lock.values[j])
    && (cur.values[i] - lock.values[i] - total) % 10 == 0
    && (!moved ==> cur == lock && total == 0)
    && (moved ==> cur.unlocked == CheckUnlock(cur.values))
    && (Sound(lock) ==> Sound(cur))
  }

  /** One more `pointermove` keeps `LockTrack`. */
  lemma LockTrackStep(lock: Lock, i: nat, cur: Lock, st: Drag, y: int, total: int, moved: bool)
    requires i < |lock.values| && LockTrack(lock, i, cur, total, moved)
    ensures var h := OnPointerMove(cur, st, i, y);
            LockTrack(lock, i, h.lock, total + h.total, moved || h.total != 0)
  {
    var h := OnPointerMove(cur, st, i, y);
    CongruenceChain(h.lock.values[i], cur.values[i], lock.values[i], h.total, total);
  }
}

=== FILE: hold.dfy ===
/**
 The up and down buttons under each dial: a tap steps once on release, and a
 press held past `HOLD_DELAY_MS` starts a hold that steps at once and then
 every `REPEAT_MS` until release, with no extra step on release.

 Time is discrete: `Tick` is one millisecond. A pending `setTimeout` or
 `setInterval` is held as the milliseconds left until it fires.
 */
module Hold {
  import opened Digits
  import opened Code
  import opened LockState

  /** The delay before a press becomes a hold. */
  const HOLD_DELAY_MS: nat := 300

  /** The repeat period of a hold. */
  const REPEAT_MS: nat := 120

  /**
   One button's closure state. `timeouts` and `intervals` are the button's
   pending `setTimeout(startHold, 300)` and `setInterval(step, 120)` timers,
   oldest first, each as the milliseconds left until it fires. The closure
   variables `holdTimeout` and `holdInt` hold the id of the latest timer of
   each kind (or `null`); `timeoutLive` and `intervalLive` say whether that
   timer is still pending, in which case it is the last of its sequence.
   Clearing `null` or a timeout that has already fired does nothing, so these
   flags are all that `clearHold` acts on.
   */
  datatype Button = Button(holdStarted: bool, timeouts: seq<nat>, timeoutLive: bool,
                           intervals: seq<nat>, intervalLive: bool)

  /** A button nobody has pressed yet. */
  const IDLE_BUTTON: Button := Button(false, [], false, [], false)

  /** No timer of the button is pending, and neither closure variable refers to one. */
  predicate Idle(b: Button) {
    b.timeouts == [] && b.intervals == [] && !b.timeoutLive && !b.intervalLive
  }

  /** A button's next state and how many times it called `nudge` and `checkUnlock`. */
  datatype Out = Out(button: Button, steps: nat)

  /**
   `pointerdown`: no hold yet, and a new hold timeout armed for
   `HOLD_DELAY_MS`. `holdTimeout` now names it; any timer armed before keeps
   running.
   */
  function Press(b: Button): (r: Button)
    ensures !r.holdStarted
    ensures r.timeouts == b.timeouts + [HOLD_DELAY_MS] && r.timeoutLive
    ensures r.intervals == b.intervals && r.intervalLive == b.intervalLive
  {
    Button(false, b.timeouts + [HOLD_DELAY_MS], true, b.intervals, b.intervalLive)
  }

  /** How many of the timers `ks` fall due in the next millisecond. */
  function Due(ks: seq<nat>): (n: nat)
    ensures n <= |ks|
    decreases |ks|
  {
    if |ks| == 0 then 0 else Due(ks[..|ks| - 1]) + (if ks[|ks| - 1] <= 1 then 1 else 0)
  }

  /** None of the timers falls due exactly when the count is 0, and all do exactly when it is `|ks|`. */
  lemma {:induction false} DueCounts(ks: seq<nat>)
    ensures Due(ks) == 0 <==> forall j :: 0 <= j < |ks| ==> ks[j] > 1
    ensures Due(ks) == |ks| <==> forall j :: 0 <= j < |ks| ==> ks[j] <= 1
    decreases |ks|
  {
    if |ks| > 0 {
      var init := ks[..|ks| - 1];
      DueCounts(init);
      assert forall j :: 0 <= j < |init| ==> init[j] == ks[j];
    }
  }

  /** One-shot timers a millisecond later: the due ones have fired and are gone, the others are one closer. */
  function Countdown(ks: seq<nat>): (r: seq<nat>)
    ensures |r| + Due(ks) == |ks|
    decreases |ks|
  {
    if |ks| == 0 then []
    else
      var k := ks[|ks| - 1];
      Countdown(ks[..|ks| - 1]) + (if k <= 1 then [] else [k - 1])
  }

  /**
   What is left of one-shot timers after a millisecond: each one is still at
   least a millisecond away, none has gone if none was due, and the latest one
   is still last unless it fired.
   */
  lemma {:induction false} CountdownKeeps(ks: seq<nat>)
    ensures forall j :: 0 <= j < |Countdown(ks)| ==> Countdown(ks)[j] >= 1
    ensures Due(ks) == 0 ==> forall j :: 0 <= j < |ks| ==> Countdown(ks)[j] + 1 == ks[j]
    ensures |ks| > 0 && ks[|ks| - 1] > 1 ==> |Countdown(ks)| > 0 && Countdown(ks)[|Countdown(ks)| - 1] + 1 == ks[|ks| - 1]
    decreases |ks|
  {
    if |ks| > 0 {
      var init := ks[..|ks| - 1];
      CountdownKeeps(init);
      assert forall j :: 0 <= j < |init| ==> init[j] == ks[j];
    }
  }

  /**
   Hold timeouts in firing order: each fires no later than every one armed
   after it. Every timeout is armed for the same `HOLD_DELAY_MS`, so the
   timeouts of a button are always in this order.
   */
  predicate Sorted(ks: seq<nat>) {
    forall j, k :: 0 <= j < k < |ks| ==> ks[j] <= ks[k]
  }

  /** In firing order, the due timeouts are the oldest: the rest each come a millisecond closer, in the same order. */
  lemma {:induction false} CountdownShifts(ks: seq<nat>)
    requires Sorted(ks)
    ensures forall j :: 0 <= j < |Countdown(ks)| ==> Countdown(ks)[j] + 1 == ks[j + Due(ks)]
    decreases |ks|
  {
    if |ks| > 0 {
      var init := ks[..|ks| - 1];
      assert forall j :: 0 <= j < |init| ==> init[j] == ks[j];
      CountdownShifts(init);
      if ks[|ks| - 1] <= 1 {
        DueCounts(init);
      }
    }
  }

  /** Timeouts in firing order, none further away than a freshly armed one. */
  predicate Pending(ks: seq<nat>) {
    Sorted(ks) && forall j :: 0 <= j < |ks| ==> ks[j] <= HOLD_DELAY_MS
  }

  /** A millisecond keeps the remaining timeouts in firing order. */
  lemma CountdownPending(ks: seq<nat>)
    requires Pending(ks)
    ensures Pending(Countdown(ks))
  {
    CountdownShifts(ks);
  }

  /** Repeating timers a millisecond later: the due ones fire and re-arm for `REPEAT_MS`, the others are one closer. */
  function Rearm(ks: seq<nat>): (r: seq<nat>)
    ensures |r| == |ks|
    decreases |ks|
  {
    if |ks| == 0 then []
    else
      var k := ks[|ks| - 1];
      Rearm(ks[..|ks| - 1]) + [if k <= 1 then REPEAT_MS else k - 1]
  }

  /** Each repeating timer either fires and re-arms for `REPEAT_MS` or comes a millisecond closer. */
  lemma {:induction false} RearmEach(ks: seq<nat>)
    ensures forall j :: 0 <= j < |ks| ==> Rearm(ks)[j] == if ks[j] <= 1 then REPEAT_MS else ks[j] - 1
    decreases |ks|
  {
    if |ks| > 0 {
      var init := ks[..|ks| - 1];
      RearmEach(init);
      assert forall j :: 0 <= j < |init| ==> init[j] == ks[j];
    }
  }

  /** `n` repeats freshly started by `startHold`, each `REPEAT_MS` away. */
  function Fresh(n: nat): (r: seq<nat>)
    ensures |r| == n
  {
    if n == 0 then [] else Fresh(n - 1) + [REPEAT_MS]
  }

  /** Every fresh repeat is `REPEAT_MS` away. */
  lemma {:induction false} FreshEach(n: nat)
    ensures forall j :: 0 <= j < n ==> Fresh(n)[j] == REPEAT_MS
  {
    if n > 0 {
      FreshEach(n - 1);
    }
  }

  /**
   The button's timers a millisecond later. Every running repeat that falls
   due re-arms for `REPEAT_MS` and the others count down; every hold timeout
   that falls due runs `startHold`, which marks the hold started and starts
   a new repeat.
   */
  function Advance(b: Button): Button {
    var fired := Due(b.timeouts);
    var live := b.timeoutLive && |b.timeouts| > 0 && b.timeouts[|b.timeouts| - 1] > 1;
    Button(b.holdStarted || fired > 0, Countdown(b.timeouts), live,
           Rearm(b.intervals) + Fresh(fired), b.intervalLive || fired > 0)
  }

  /**
   One millisecond passes: the button advances, and each repeat or hold
   timeout that falls due takes one step.
   */
  function Tick(b: Button): (r: Out)
    ensures r.steps == Due(b.intervals) + Due(b.timeouts)
  {
    Out(Advance(b), Due(b.intervals) + Due(b.timeouts))
  }

  /**
   A millisecond steps the dial once per timer of either kind that falls
   due, and a button whose every pending timer is more than a millisecond
   away takes no step; it steps once per pending timer exactly when all of
   them fall due.
   */
  lemma TickStepsWhenDue(b: Button)
    ensures var r := Tick(b);
            && r.steps <= |b.intervals| + |b.timeouts|
            && (r.steps == 0 <==>
                  (forall j :: 0 <= j < |b.intervals| ==> b.intervals[j] > 1) &&
                  (forall j :: 0 <= j < |b.timeouts| ==> b.timeouts[j] > 1))
            && (r.steps == |b.intervals| + |b.timeouts| <==>
                  (forall j :: 0 <= j < |b.intervals| ==> b.intervals[j] <= 1) &&
                  (forall j :: 0 <= j < |b.timeouts| ==> b.timeouts[j] <= 1))
  {
    DueCounts(b.intervals);
    DueCounts(b.timeouts);
  }

  /**
   Every running repeat survives a millisecond: one that falls due re-arms
   for `REPEAT_MS` and any other comes a millisecond closer. Each hold
   timeout that falls due adds a repeat of its own, which `holdInt` then
   names, and the hold has started once any hold timeout has fired.
   */
  lemma TickKeepsRepeats(b: Button)
    ensures var r := Tick(b);
            && r.steps == Due(b.intervals) + Due(b.timeouts)
            && |r.button.intervals| == |b.intervals| + Due(b.timeouts)
            && (forall j :: 0 <= j < |b.intervals| ==>
                  r.button.intervals[j] == if b.intervals[j] <= 1 then REPEAT_MS else b.intervals[j] - 1)
            && (forall j :: |b.intervals| <= j < |r.button.intervals| ==> r.button.intervals[j] == REPEAT_MS)
            && (r.button.holdStarted <==> b.holdStarted || exists j :: 0 <= j < |b.timeouts| && b.timeouts[j] <= 1)
            && (r.button.intervalLive <==> b.intervalLive || exists j :: 0 <= j < |b.timeouts| && b.timeouts[j] <= 1)
  {
    DueCounts(b.timeouts);
    RearmEach(b.intervals);
    FreshEach(Due(b.timeouts));
  }

  /**
   A hold timeout that falls due in a millisecond is gone, every other one
   comes a millisecond closer (in firing order, the due ones are the oldest,
   so each survivor keeps its place behind them), and `holdTimeout` names a pending timer only
   while the latest one has not fired. A button with no timer pending stays
   as it is.
   */
  lemma TickCountsDown(b: Button)
    ensures var r := Tick(b);
            && |r.button.timeouts| == |b.timeouts| - Due(b.timeouts)
            && (forall j :: 0 <= j < |r.button.timeouts| ==> r.button.timeouts[j] >= 1)
            && (Due(b.timeouts) == 0 ==> forall j :: 0 <= j < |b.timeouts| ==> r.button.timeouts[j] + 1 == b.timeouts[j])
            && (Sorted(b.timeouts) ==>
                  forall j :: 0 <= j < |r.button.timeouts| ==> r.button.timeouts[j] + 1 == b.timeouts[j + Due(b.timeouts)])
            && (r.button.timeoutLive <==> b.timeoutLive && |b.timeouts| > 0 && b.timeouts[|b.timeouts| - 1] > 1)
            && (r.button.timeoutLive ==> r.button.timeouts[|r.button.timeouts| - 1] + 1 == b.timeouts[|b.timeouts| - 1])
            && (b.timeouts == [] && b.intervals == [] ==> r == Out(b.(timeoutLive := false), 0))
  {
    CountdownKeeps(b.timeouts);
    if Sorted(b.timeouts) {
      CountdownShifts(b.timeouts);
    }
  }

  /** The timers `ks` with the latest one cleared if `live` says it is still pending. */
  function ClearLatest(ks: seq<nat>, live: bool): (r: seq<nat>)
    ensures live && |ks| > 0 ==> r == ks[..|ks| - 1]
    ensures !live ==> r == ks
  {
    if live && |ks| > 0 then ks[..|ks| - 1] else ks
  }

  /**
   `pointerup`, `pointerleave` or `pointercancel`: `clearHold` stops the
   timers the closure variables name, which are the latest of each kind, and
   the button steps once only if no hold had started. An older timer that a
   repeated `pointerdown` or `startHold` left behind keeps running.
   */
  function Release(b: Button): (r: Out)
    ensures r.button.holdStarted == b.holdStarted && !r.button.timeoutLive && !r.button.intervalLive
    ensures |r.button.timeouts| == |b.timeouts| - (if b.timeoutLive && |b.timeouts| > 0 then 1 else 0)
    ensures |r.button.intervals| == |b.intervals| - (if b.intervalLive && |b.intervals| > 0 then 1 else 0)
    ensures r.button.timeouts <= b.timeouts && r.button.intervals <= b.intervals
    ensures r.steps == (if b.holdStarted then 0 else 1)
  {
    Out(Button(b.holdStarted, ClearLatest(b.timeouts, b.timeoutLive), false,
               ClearLatest(b.intervals, b.intervalLive), false),
        if b.holdStarted then 0 else 1)
  }

  /** The button after `n` milliseconds, and the steps taken meanwhile. */
  function RunTicks(b: Button, n: nat): Out
    decreases n
  {
    if n == 0 then Out(b, 0)
    else
      var before := RunTicks(b, n - 1);
      var t := Tick(before.button);
      Out(t.button, before.steps + t.steps)
  }

  /** A button one millisecond on, with its steps added to those counted so far. */
  function Later(o: Out): (r: Out)
    ensures r.button == Tick(o.button).button && r.steps == o.steps + Tick(o.button).steps
  {
    var t := Tick(o.button);
    Out(t.button, o.steps + t.steps)
  }

  /** One more millisecond after a run that ended at `prev`. */
  lemma RunTicksNext(b: Button, n: nat, prev: Out)
    requires RunTicks(b, n) == prev
    ensures RunTicks(b, n + 1) == Out(Tick(prev.button).button, prev.steps + Tick(prev.button).steps)
  {
  }

  /**
   A hold `m` milliseconds after a repeat started, with that repeat the only
   timer pending: `live` says whether `holdInt` still names it.
   */
  function Repeating(live: bool, m: nat): Out {
    Out(Button(true, [], false, [REPEAT_MS - m % REPEAT_MS], live), m / REPEAT_MS)
  }

  /** Where a press stands `n` milliseconds after `pointerdown` on an idle button. */
  function Pressed(n: nat): Out {
    if n < HOLD_DELAY_MS then Out(Button(false, [HOLD_DELAY_MS - n], true, [], false), 0)
    else
      Out(Repeating(true, n - HOLD_DELAY_MS).button, 1 + (n - HOLD_DELAY_MS) / REPEAT_MS)
  }

  /**
   A press on an idle button: for the first 300 ms nothing happens; at
   300 ms the hold starts with one step, and a further step follows every
   120 ms.
   */
  lemma {:induction false} PressTimeline(b: Button, n: nat)
    requires Idle(b)
    ensures RunTicks(Press(b), n) == Pressed(n)
  {
    if n < HOLD_DELAY_MS {
      PressWaits(b, n);
    } else {
      PressHolds(b, n - HOLD_DELAY_MS, n);
    }
  }

  /** Before the hold timeout fires, a press only counts down. */
  lemma {:induction false} PressWaits(b: Button, n: nat)
    requires Idle(b) && n < HOLD_DELAY_MS
    ensures RunTicks(Press(b), n) == Out(Button(false, [HOLD_DELAY_MS - n], true, [], false), 0)
    decreases n
  {
    if n > 0 {
      PressWaits(b, n - 1);
      var k := HOLD_DELAY_MS - (n - 1);
      RunTicksNext(Press(b), n - 1, Out(Button(false, [k], true, [], false), 0));
      assert Countdown([k]) == [k - 1];
    }
  }

  /** At 300 ms the hold timeout fires: the hold starts with one step and one repeat. */
  lemma HoldStarts(b: Button)
    requires Idle(b)
    ensures RunTicks(Press(b), HOLD_DELAY_MS) == Out(Repeating(true, 0).button, 1)
  {
    var n := HOLD_DELAY_MS - 1;
    PressWaits(b, n);
    RunTicksNext(Press(b), n, Out(Button(false, [1], true, [], false), 0));
    assert n + 1 == HOLD_DELAY_MS;
    TimeoutFires();
  }

  /** The last hold timeout falls due: the hold starts, steps once and starts a repeat. */
  lemma TimeoutFires()
    ensures Tick(Button(false, [1], true, [], false)) == Out(Repeating(true, 0).button, 1)
  {
    assert Due([1]) == 1 && Countdown([1]) == [];
    assert Fresh(1) == [REPEAT_MS];
  }

  /**
   From the moment the hold timeout fires, the press is a hold with one
   repeat running: `m` milliseconds later, at `n`, it has taken one step
   plus one every `REPEAT_MS`.
   */
  lemma PressHolds(b: Button, m: nat, n: nat)
    requires Idle(b) && n == HOLD_DELAY_MS + m
    ensures RunTicks(Press(b), n) == Out(Repeating(true, m).button, 1 + m / REPEAT_MS)
  {
    HoldStarts(b);
    RepeatingTimeline(Press(b), HOLD_DELAY_MS, 1, true, m, n);
  }

  /** With one repeat as the only timer, one millisecond either fires it or brings it one closer. */
  lemma RepeatingAdvances(live: bool, m: nat)
    ensures var t := Tick(Repeating(live, m).button);
            Repeating(live, m + 1) == Out(t.button, Repeating(live, m).steps + t.steps)
  {
    var now := Repeating(live, m);
    var t := Tick(now.button);
    RepeatPhaseStep(m);
    if m % REPEAT_MS == REPEAT_MS - 1 {
      assert t == Out(Button(true, [], false, [REPEAT_MS], live), 1);
    } else {
      assert t == Out(Button(true, [], false, [REPEAT_MS - m % REPEAT_MS - 1], live), 0);
    }
  }

  /**
   A lone repeat keeps stepping once every `REPEAT_MS`, for as long as
   nothing clears it: once a run from `x` reaches a freshly started repeat
   after `k` milliseconds, `m` more milliseconds, ending at `n`, add
   `m / REPEAT_MS` steps.
   */
  lemma {:induction false} RepeatingTimeline(x: Button, k: nat, s: nat, live: bool, m: nat, n: nat)
    requires n == k + m
    requires RunTicks(x, k) == Out(Repeating(live, 0).button, s)
    ensures RunTicks(x, n) == Out(Repeating(live, m).button, s + m / REPEAT_MS)
    decreases m
  {
    if m == 0 {
      assert n == k && Repeating(live, m) == Repeating(live, 0) && s + m / REPEAT_MS == s;
    } else {
      RepeatingTimeline(x, k, s, live, m - 1, n - 1);
      RepeatingNext(x, n - 1, n, s, live, m - 1, m);
    }
  }

  /**
   One more millisecond of a run that has reached a lone repeat: from `n` to
   `n1`, and from `m` to `m1`. The later instants are parameters rather than
   sums so that the caller's goal matches this ensures term for term.
   */
  lemma RepeatingNext(x: Button, n: nat, n1: nat, s: nat, live: bool, m: nat, m1: nat)
    requires n1 == n + 1 && m1 == m + 1
    requires RunTicks(x, n) == Out(Repeating(live, m).button, s + m / REPEAT_MS)
    ensures RunTicks(x, n1) == Out(Repeating(live, m1).button, s + m1 / REPEAT_MS)
  {
    var h := Repeating(live, m);
    RunTicksNext(x, n, Out(h.button, s + h.steps));
    RepeatingAdvances(live, m);
  }

  /** How the position within the repeat period and the repeat count advance by one millisecond. */
  lemma RepeatPhaseStep(m: nat)
    ensures m % REPEAT_MS == REPEAT_MS - 1 ==> (m + 1) % REPEAT_MS == 0 && (m + 1) / REPEAT_MS == m / REPEAT_MS + 1
    ensures m % REPEAT_MS != REPEAT_MS - 1 ==> (m + 1) % REPEAT_MS == m % REPEAT_MS + 1 && (m + 1) / REPEAT_MS == m / REPEAT_MS
  {
    var q := m / REPEAT_MS;
    var r := m % REPEAT_MS;
    assert m == REPEAT_MS * q + r;
    if r == REPEAT_MS - 1 {
      assert m + 1 == REPEAT_MS * (q + 1);
    } else {
      assert m + 1 == REPEAT_MS * q + (r + 1);
    }
  }

  /** A button with no timer pending is left as it is by a millisecond, and takes no step. */
  lemma IdleTick(b: Button)
    requires Idle(b)
    ensures Tick(b) == Out(b, 0)
  {
    TickCountsDown(b);
  }

  /** A millisecond takes a press from where it stands after `n` ms to where it stands after `n + 1`. */
  lemma PressedTick(n: nat)
    ensures Later(Pressed(n)) == Pressed(n + 1)
  {
    PressTimeline(IDLE_BUTTON, n);
    PressTimeline(IDLE_BUTTON, n + 1);
    RunTicksNext(Press(IDLE_BUTTON), n, Pressed(n));
  }

  /** The steps of a press released after `n` milliseconds. */
  function PressSteps(n: nat): (k: nat)
    ensures k >= 1
  {
    if n < HOLD_DELAY_MS then 1 else 1 + (n - HOLD_DELAY_MS) / REPEAT_MS
  }

  /**
   Tap versus hold: a press released before the hold timeout fires steps
   exactly once, on release; a press held `n >= 300` ms steps once at 300 ms
   and once per 120 ms after that, and its release adds nothing. Either way
   the button ends with no timer pending.
   */
  lemma TapOrHold(b: Button, n: nat)
    requires Idle(b)
    ensures var held := RunTicks(Press(b), n);
            var released := Release(held.button);
            held.steps + released.steps == PressSteps(n) &&
            (n < HOLD_DELAY_MS <==> released.steps == 1) &&
            Idle(released.button)
  {
    PressTimeline(b, n);
  }

  /** Released after `n` milliseconds, a press has taken `PressSteps(n)` steps in all and leaves the button idle. */
  lemma PressedRelease(n: nat)
    ensures var released := Release(Pressed(n).button);
            Pressed(n).steps + released.steps == PressSteps(n) && Idle(released.button)
  {
    TapOrHold(IDLE_BUTTON, n);
    PressTimeline(IDLE_BUTTON, n);
  }

  /**
   A second release with no press between them steps again after a tap:
   `release` keeps no record that it has already run, so a `pointerup`
   followed by a `pointerleave` counts twice.
   */
  lemma ReleaseTwiceAfterTap(b: Button)
    requires !b.holdStarted
    ensures Release(b).steps == 1 && Release(Release(b).button).steps == 1
  {
  }

  /**
   `release` also runs on `pointerleave`, and `holdStarted` is false both
   before any press and after a tap: a pointer that merely crosses a button
   steps its dial, and so does one that leaves it after a tap.
   */
  lemma StrayReleaseSteps(b: Button, n: nat)
    requires Idle(b) && n < HOLD_DELAY_MS
    ensures Release(IDLE_BUTTON).steps == 1
    ensures var tapped := Release(RunTicks(Press(b), n).button);
            tapped.steps == 1 && Release(tapped.button).steps == 1
  {
    PressTimeline(b, n);
  }

  /**
   `release` as evidently intended: it steps only for a press that has not
   become a hold, which is exactly while `holdTimeout` names a pending timer.
   */
  function ReleaseIfPressed(b: Button): (r: Out)
    ensures r.button == Release(b).button
    ensures r.steps == 1 <==> b.timeoutLive && !b.holdStarted
    ensures r.steps <= Release(b).steps
  {
    Out(Release(b).button, if b.timeoutLive && !b.holdStarted then 1 else 0)
  }

  /**
   The corrected release keeps tap and hold as they are, and steps neither
   for a pointer that crosses an unpressed button nor for a second release.
   */
  lemma ReleaseIfPressedSteps(b: Button, n: nat)
    requires Idle(b)
    ensures ReleaseIfPressed(IDLE_BUTTON).steps == 0
    ensures var held := RunTicks(Press(b), n);
            var released := ReleaseIfPressed(held.button);
            held.steps + released.steps == PressSteps(n) &&
            Idle(released.button) &&
            ReleaseIfPressed(released.button).steps == 0
  {
    PressTimeline(b, n);
  }

  /** The first `n < 300` ms after two presses in the same millisecond: two hold timeouts count down. */
  lemma {:induction false} DoublePressWaits(b: Button, n: nat)
    requires Idle(b) && n < HOLD_DELAY_MS
    ensures RunTicks(Press(Press(b)), n) ==
            Out(Button(false, [HOLD_DELAY_MS - n, HOLD_DELAY_MS - n], true, [], false), 0)
    decreases n
  {
    if n > 0 {
      DoublePressWaits(b, n - 1);
      var k := HOLD_DELAY_MS - (n - 1);
      RunTicksNext(Press(Press(b)), n - 1, Out(Button(false, [k, k], true, [], false), 0));
      BothCountDown(k);
    }
  }

  /** Two hold timeouts not yet due both come a millisecond closer. */
  lemma BothCountDown(k: nat)
    requires k > 1
    ensures Tick(Button(false, [k, k], true, [], false)) == Out(Button(false, [k - 1, k - 1], true, [], false), 0)
  {
    assert [k, k][..1] == [k];
    assert Due([k]) == 0 && Countdown([k]) == [k - 1];
    assert Due([k, k]) == 0 && Countdown([k, k]) == [k - 1, k - 1];
  }

  /**
   A second `pointerdown` before release (a second finger, or a press whose
   `pointerup` went elsewhere) arms a second hold timeout; both fire and each
   starts a repeat, and the release clears only the one `holdInt` names. The
   other keeps stepping the dial every 120 ms with no pointer down.
   */
  lemma SecondPressLeaksRepeat(b: Button, m: nat)
    requires Idle(b)
    ensures var held := RunTicks(Press(Press(b)), HOLD_DELAY_MS);
            var released := Release(held.button);
            held.steps == 2 && released.steps == 0 &&
            released.button.intervals == [REPEAT_MS] &&
            RunTicks(released.button, m).steps == m / REPEAT_MS
  {
    DoublePressReleased(b);
    LeakedRepeatSteps(m);
  }

  /** Released at 300 ms, a double press keeps one repeat that no closure variable names. */
  lemma DoublePressReleased(b: Button)
    requires Idle(b)
    ensures var held := RunTicks(Press(Press(b)), HOLD_DELAY_MS);
            held.steps == 2 && Release(held.button) == Out(Repeating(false, 0).button, 0)
  {
    DoublePressFires(b);
  }

  /** A repeat that no closure variable names steps once every `REPEAT_MS`, with nothing to stop it. */
  lemma LeakedRepeatSteps(m: nat)
    ensures RunTicks(Repeating(false, 0).button, m).steps == m / REPEAT_MS
  {
    RepeatingTimeline(Repeating(false, 0).button, 0, 0, false, m, m);
  }

  /** At 300 ms both hold timeouts fire: two steps, and two repeats started. */
  lemma DoublePressFires(b: Button)
    requires Idle(b)
    ensures RunTicks(Press(Press(b)), HOLD_DELAY_MS) ==
            Out(Button(true, [], false, [REPEAT_MS, REPEAT_MS], true), 2)
  {
    DoublePressWaits(b, HOLD_DELAY_MS - 1);
    RunTicksNext(Press(Press(b)), HOLD_DELAY_MS - 1, Out(Button(false, [1, 1], true, [], false), 0));
    BothDue();
  }

  /** Two hold timeouts due in the same millisecond both run `startHold`. */
  lemma BothDue()
    ensures Tick(Button(false, [1, 1], true, [], false)) == Out(Button(true, [], false, [REPEAT_MS, REPEAT_MS], true), 2)
  {
    assert [1, 1][..1] == [1];
    assert Due([1]) == 1 && Countdown([1]) == [];
    assert Due([1, 1]) == 2 && Countdown([1, 1]) == [];
    assert Fresh(1) == [REPEAT_MS];
    assert Fresh(2) == [REPEAT_MS, REPEAT_MS];
  }

  /** At most one timer is pending, and the closure variable of its kind names it. */
  predicate OneTimer(b: Button) {
    && (b.timeouts == [] || (|b.timeouts| == 1 && b.timeoutLive))
    && (b.intervals == [] || (|b.intervals| == 1 && b.intervalLive))
    && |b.timeouts| + |b.intervals| <= 1
  }

  /** `pointerdown` as evidently intended: `clearHold` first, then arm the hold timeout. */
  function PressCleared(b: Button): (r: Button)
    ensures OneTimer(b) ==> r == Press(IDLE_BUTTON)
  {
    Press(Release(b).button)
  }

  /** The events of one button: `pointerdown`, a release, or a millisecond passing. */
  datatype ButtonEvent = Down | Up | Millisecond

  /** One event on a button with the corrected `pointerdown`. */
  function StepCleared(b: Button, e: ButtonEvent): Button {
    match e
    case Down => PressCleared(b)
    case Up => Release(b).button
    case Millisecond => Tick(b).button
  }

  /** The button after `evs`, with the corrected `pointerdown`. */
  function ReplayCleared(b: Button, evs: seq<ButtonEvent>): Button
    decreases |evs|
  {
    if |evs| == 0 then b else StepCleared(ReplayCleared(b, evs[..|evs| - 1]), evs[|evs| - 1])
  }

  /** One event on a button as the script handles it. */
  function StepAsWritten(b: Button, e: ButtonEvent): Button {
    match e
    case Down => Press(b)
    case Up => Release(b).button
    case Millisecond => Tick(b).button
  }

  /** The button after `evs`, as the script handles them. */
  function Replay(b: Button, evs: seq<ButtonEvent>): Button
    decreases |evs|
  {
    if |evs| == 0 then b else StepAsWritten(Replay(b, evs[..|evs| - 1]), evs[|evs| - 1])
  }

  /** Every event keeps a button's hold timeouts in firing order. */
  lemma StepKeepsPending(b: Button, e: ButtonEvent)
    requires Pending(b.timeouts)
    ensures Pending(StepAsWritten(b, e).timeouts)
  {
    match e
    case Down =>
      assert forall j :: 0 <= j < |b.timeouts| ==> Press(b).timeouts[j] == b.timeouts[j];
    case Up =>
    case Millisecond =>
      CountdownPending(b.timeouts);
  }

  /**
   However presses, releases and milliseconds interleave, a button's hold
   timeouts stay in firing order, so `TickCountsDown` describes every
   millisecond of every button exactly.
   */
  lemma {:induction false} ReplayPending(evs: seq<ButtonEvent>)
    ensures Pending(Replay(IDLE_BUTTON, evs).timeouts)
    decreases |evs|
  {
    if |evs| > 0 {
      ReplayPending(evs[..|evs| - 1]);
      StepKeepsPending(Replay(IDLE_BUTTON, evs[..|evs| - 1]), evs[|evs| - 1]);
    }
  }

  /** A millisecond never adds a second pending timer to a button with at most one. */
  lemma TickKeepsOneTimer(b: Button)
    requires OneTimer(b)
    ensures OneTimer(Tick(b).button)
  {
    if b.timeouts != [] {
      var k := b.timeouts[0];
      assert b.timeouts == [k];
      assert Due([k]) == (if k <= 1 then 1 else 0);
      assert Countdown([k]) == (if k <= 1 then [] else [k - 1]);
      assert Fresh(1) == [REPEAT_MS];
    } else if b.intervals != [] {
      var k := b.intervals[0];
      assert b.intervals == [k];
      assert Rearm([k]) == [if k <= 1 then REPEAT_MS else k - 1];
    }
  }

  /**
   With the corrected `pointerdown`, no sequence of presses, releases and
   milliseconds ever has two timers pending, so every release stops them all.
   */
  lemma {:induction false} ClearedReleaseStopsAll(evs: seq<ButtonEvent>)
    ensures OneTimer(ReplayCleared(IDLE_BUTTON, evs))
    ensures Idle(Release(ReplayCleared(IDLE_BUTTON, evs)).button)
    decreases |evs|
  {
    if |evs| > 0 {
      ClearedReleaseStopsAll(evs[..|evs| - 1]);
      var before := ReplayCleared(IDLE_BUTTON, evs[..|evs| - 1]);
      if evs[|evs| - 1] == Millisecond {
        TickKeepsOneTimer(before);
      }
    }
  }

  /** The direction of a button's steps: +1 for the up button, -1 for the down one. */
  function Direction(up: bool): int {
    if up then 1 else -1
  }

  /** The displacement of `k` steps in the direction of button `up`. */
  function Displacement(up: bool, k: int): int {
    if up then k else -k
  }

  /** The dial values after `k` nudges of one unit on dial `i`. */
  function NudgeTimes(values: seq<int>, i: nat, up: bool, k: nat): (r: seq<int>)
    requires i < |values|
    ensures |r| == |values|
    ensures forall j :: 0 <= j < |r| && j != i ==> r[j] == values[j]
    decreases k
  {
    if k == 0 then values else Nudge(NudgeTimes(values, i, up, k - 1), i, Direction(up))
  }

  /** `k` nudges of one unit move an in-range dial by their displacement, modulo 10. */
  lemma {:induction false} NudgeTimesMovesDial(values: seq<int>, i: nat, up: bool, k: nat)
    requires i < |values| && IsDigit(values[i])
    ensures NudgeTimes(values, i, up, k)[i] == WrapDigit(values[i] + Displacement(up, k))
    decreases k
  {
    if k == 0 {
      WrapDigitUnique(values[i], values[i]);
    } else {
      NudgeTimesMovesDial(values, i, up, k - 1);
      NudgeOneMore(values, i, up, k);
    }
  }

  /** One nudge more moves an in-range dial one unit further, modulo 10. */
  lemma NudgeOneMore(values: seq<int>, i: nat, up: bool, k: nat)
    requires i < |values| && IsDigit(values[i]) && k > 0
    requires NudgeTimes(values, i, up, k - 1)[i] == WrapDigit(values[i] + Displacement(up, k - 1))
    ensures NudgeTimes(values, i, up, k)[i] == WrapDigit(values[i] + Displacement(up, k))
  {
    var v := values[i];
    NudgeTimesStep(values, i, up, k);
    WrapDigitAdd(v + Displacement(up, k - 1), Direction(up));
    assert Displacement(up, k - 1) + Direction(up) == Displacement(up, k);
  }

  /** One more nudge of one unit on an in-range dial is the wrap-around of one more unit. */
  lemma NudgeTimesStep(values: seq<int>, i: nat, up: bool, k: nat)
    requires i < |values| && k > 0 && IsDigit(NudgeTimes(values, i, up, k - 1)[i])
    ensures NudgeTimes(values, i, up, k)[i] == WrapDigit(NudgeTimes(values, i, up, k - 1)[i] + Direction(up))
  {
  }

  /**
   `k` calls of `step()`, each a nudge of one unit followed by the
   comparison. Every comparison overwrites the unlocked state, so after at
   least one step it is the comparison on the final values.
   */
  function Repeat(lock: Lock, i: nat, up: bool, k: nat): (r: Lock)
    requires i < |lock.values|
    ensures |r.values| == |lock.values|
    ensures forall j :: 0 <= j < |r.values| && j != i ==> r.values[j] == lock.values[j]
    ensures k > 0 ==> r.unlocked == CheckUnlock(r.values)
    ensures k == 0 ==> r == lock
    ensures Sound(lock) ==> Sound(r)
  {
    if k == 0 then lock else Check(Lock(NudgeTimes(lock.values, i, up, k), lock.unlocked))
  }

  /** Repeating `k` steps is one more `Step` after `k - 1` of them. */
  lemma RepeatIsSteps(lock: Lock, i: nat, up: bool, k: nat)
    requires i < |lock.values| && k > 0
    ensures Repeat(lock, i, up, k) == Step(Repeat(lock, i, up, k - 1), i, Direction(up))
  {
    assert NudgeTimes(lock.values, i, up, k) == Nudge(NudgeTimes(lock.values, i, up, k - 1), i, Direction(up));
  }

  /** `k` steps of one unit move an in-range dial to its value plus their displacement, modulo 10. */
  lemma RepeatMovesDial(lock: Lock, i: nat, up: bool, k: nat)
    requires i < |lock.values| && IsDigit(lock.values[i])
    ensures Repeat(lock, i, up, k).values[i] == WrapDigit(lock.values[i] + Displacement(up, k))
  {
    NudgeTimesMovesDial(lock.values, i, up, k);
  }

  /** A button, its dial and the steps taken so far, partway through a press. */
  datatype Held = Held(lock: Lock, button: Button, steps: nat)

  /** `s` nudges followed by `k` more are `s + k` nudges. */
  lemma {:induction false} NudgeTimesAdd(values: seq<int>, i: nat, up: bool, s: nat, k: nat)
    requires i < |values|
    ensures NudgeTimes(NudgeTimes(values, i, up, s), i, up, k) == NudgeTimes(values, i, up, s + k)
    decreases k
  {
    if k > 0 {
      NudgeTimesAdd(values, i, up, s, k - 1);
    }
  }

  /** Further steps continue the count: `s` steps then `k` more are `s + k` steps. */
  lemma RepeatAdd(lock: Lock, i: nat, up: bool, s: nat, k: nat)
    requires i < |lock.values|
    ensures Repeat(Repeat(lock, i, up, s), i, up, k) == Repeat(lock, i, up, s + k)
  {
    NudgeTimesAdd(lock.values, i, up, s, k);
  }

  /**
   The first `n` milliseconds of a press of the up or down button under dial
   `i`: the button is where `RunTicks` puts it, the dial has taken the
   steps (wrapping within 0..9 when it showed a digit), and no other dial
   has moved.
   */
  method HoldFor(lock: Lock, i: nat, up: bool, n: nat) returns (h: Held)
    requires i < |lock.values|
    ensures Out(h.button, h.steps) == Pressed(n)
    ensures h.steps == (if n < HOLD_DELAY_MS then 0 else 1 + (n - HOLD_DELAY_MS) / REPEAT_MS)
    ensures h.lock == Repeat(lock, i, up, h.steps)
    ensures |h.lock.values| == |lock.values|
    ensures forall j :: 0 <= j < |h.lock.values| && j != i ==> h.lock.values[j] == lock.values[j]
    ensures IsDigit(lock.values[i]) ==> h.lock.values[i] == WrapDigit(lock.values[i] + Displacement(up, h.steps))
    ensures h.steps > 0 ==> h.lock.unlocked == CheckUnlock(h.lock.values)
  {
    var b := Press(IDLE_BUTTON);
    var steps: nat := 0;
    var t := 0;
    while t < n
      invariant 0 <= t <= n
      invariant RunTicks(Press(IDLE_BUTTON), t) == Out(b, steps)
    {
      RunTicksNext(Press(IDLE_BUTTON), t, Out(b, steps));
      var o := Tick(b);
      steps := steps + o.steps;
      b := o.button;
      t := t + 1;
    }
    PressTimeline(IDLE_BUTTON, n);
    if IsDigit(lock.values[i]) {
      RepeatMovesDial(lock, i, up, steps);
    }
    h := Held(Repeat(lock, i, up, steps), b, steps);
  }

  /**
   A press of the up or down button under dial `i`, released after `n`
   milliseconds. The dial takes `PressSteps(n)` steps in the button's
   direction (wrapping within 0..9 when it showed a digit), the comparison
   follows the last step, and no other dial moves.
   */
  method PressAndRelease(lock: Lock, i: nat, up: bool, n: nat) returns (r: Lock, steps: nat)
    requires i < |lock.values|
    ensures steps == PressSteps(n)
    ensures r == Repeat(lock, i, up, steps)
    ensures |r.values| == |lock.values|
    ensures forall j :: 0 <= j < |r.values| && j != i ==> r.values[j] == lock.values[j]
    ensures IsDigit(lock.values[i]) ==> r.values[i] == WrapDigit(lock.values[i] + Displacement(up, steps))
    ensures r.unlocked == CheckUnlock(r.values)
  {
    var h := HoldFor(lock, i, up, n);
    var o := Release(h.button);
    RepeatAdd(lock, i, up, h.steps, o.steps);
    r := Repeat(h.lock, i, up, o.steps);
    steps := h.steps + o.steps;
    if IsDigit(lock.values[i]) {
      RepeatMovesDial(lock, i, up, steps);
    }
  }
}

=== FILE: lock.dfy ===
/**
 The lock as the page sees it: the five dial values and whether the lock
 card currently shows the "unlocked" state that `checkUnlock` sets on a match
 and clears on a mismatch.
 */
module LockState {
  import opened Digits
  import opened Code

  datatype Lock = Lock(values: seq<int>, unlocked: bool)

  /** The unlocked state is only ever shown for the right combination. */
  predicate Sound(lock: Lock) {
    lock.unlocked ==> CheckUnlock(lock.values)
  }

  /**
   `checkUnlock()`: the values stay as they are and the unlocked state
   becomes the comparison's result.
   */
  function Check(lock: Lock): (r: Lock)
    ensures r.values == lock.values
    ensures |lock.values| == CODE_LENGTH ==> (r.unlocked <==> lock.values == TARGET_CODE)
    ensures Sound(r)
  {
    Lock(lock.values, CheckUnlock(lock.values))
  }

  /**
   `nudge(i, delta)` followed by `checkUnlock()`, the pair every gesture
   performs: dial `i` moves by `delta` modulo 10, no other dial changes, and
   the unlocked state reflects the new values.
   */
  function Step(lock: Lock, i: nat, delta: int): (r: Lock)
    requires i < |lock.values|
    ensures |r.values| == |lock.values|
    ensures forall j :: 0 <= j < |r.values| && j != i ==> r.values[j] == lock.values[j]
    ensures (r.values[i] - lock.values[i] - delta) % 10 == 0
    ensures lock.values[i] + delta >= -10 ==> r.values[i] == WrapDigit(lock.values[i] + delta)
    ensures |lock.values| == CODE_LENGTH ==> (r.unlocked <==> r.values == TARGET_CODE)
    ensures Sound(r)
  {
    Check(Lock(Nudge(lock.values, i, delta), lock.unlocked))
  }

  /** A step up and a step down on an in-range dial cancel out, whichever comes first. */
  lemma StepInverse(lock: Lock, i: nat)
    requires i < |lock.values| && IsDigit(lock.values[i])
    ensures Step(Step(lock, i, 1), i, -1).values == lock.values
    ensures Step(Step(lock, i, -1), i, 1).values == lock.values
  {
    NudgeInverse(lock.values, i);
  }
}

=== FILE: page.dfy ===
/**
 The whole lock page as one state machine: five dials, each with its drag
 bookkeeping and its up and down buttons, driven by the events the script
 listens for. `Init` is the page load (`setFromQuery(); render();`);
 `Handle` dispatches one event to the handler script.js registers for it.
 */
module Page {
  import opened Wrappers
  import opened Digits
  import opened Code
  import opened LockState
  import opened Gestures
  import opened Hold

  datatype Page = Page(lock: Lock, drags: seq<Drag>, ups: seq<Button>, downs: seq<Button>)

  /** Five dials, each with drag bookkeeping and two buttons, and accumulators holding whole steps. */
  predicate WellFormed(p: Page) {
    && |p.lock.values| == CODE_LENGTH
    && |p.drags| == CODE_LENGTH && |p.ups| == CODE_LENGTH && |p.downs| == CODE_LENGTH
    && forall j :: 0 <= j < |p.drags| ==> DragInv(p.drags[j])
  }

  /**
   The events of one dial `i`, of its buttons, of the page clock and of the
   shuffle and share buttons. `Tick` is one millisecond passing;
   `DialPointerEnd` is `pointerup` or `pointercancel` on the dial;
   `ButtonRelease` is `pointerup`, `pointerleave` or `pointercancel` on a
   button; `up` picks the up button rather than the down one.
   */
  datatype Event =
    | Wheel(i: nat, deltaY: int)
    | KeyDown(i: nat, key: string)
    | DialClick(i: nat, target: ClickTarget)
    | DialPointerDown(i: nat, y: int)
    | DialPointerMove(i: nat, y: int)
    | DialPointerEnd(i: nat)
    | ButtonDown(i: nat, up: bool)
    | ButtonRelease(i: nat, up: bool)
    | Tick
    | Shuffle(draws: seq<real>)
    | Share

  /** An event the page can receive: a dial that exists, and one `Math.random()` draw in [0, 1) per dial. */
  predicate ValidEvent(ev: Event) {
    match ev
    case Tick => true
    case Share => true
    case Shuffle(draws) => |draws| == CODE_LENGTH && forall k :: 0 <= k < |draws| ==> 0.0 <= draws[k] < 1.0
    case _ => ev.i < CODE_LENGTH
  }

  /** The page on load: all dials at 0, then the `code` query parameter if it is well-formed. */
  function Init(code: Option<string>): (p: Page)
    ensures WellFormed(p) && !p.lock.unlocked && Sound(p.lock)
    ensures code.Some? && MatchesCode(code.value) ==>
              AllDigits(p.lock.values) &&
              forall k :: 0 <= k < CODE_LENGTH ==> DigitChar(p.lock.values[k]) == code.value[k]
    ensures !(code.Some? && MatchesCode(code.value)) ==> p.lock.values == [0, 0, 0, 0, 0]
    ensures forall j :: 0 <= j < CODE_LENGTH ==>
              p.drags[j] == IDLE_DRAG && p.ups[j] == IDLE_BUTTON && p.downs[j] == IDLE_BUTTON
  {
    Page(Lock(SetFromQuery([0, 0, 0, 0, 0], code), false),
         seq(CODE_LENGTH, _ => IDLE_DRAG),
         seq(CODE_LENGTH, _ => IDLE_BUTTON),
         seq(CODE_LENGTH, _ => IDLE_BUTTON))
  }

  /** The lock and buttons after one millisecond, and how many steps the buttons took. */
  datatype Ticked = Ticked(lock: Lock, buttons: seq<Button>, steps: nat)

  /** The total of the step counts `ks`. */
  function Sum(ks: seq<nat>): nat
    decreases |ks|
  {
    if |ks| == 0 then 0 else Sum(ks[..|ks| - 1]) + ks[|ks| - 1]
  }

  /** A total is 0 only when every count is. */
  lemma {:induction false} SumZero(ks: seq<nat>)
    ensures Sum(ks) == 0 ==> forall j :: 0 <= j < |ks| ==> ks[j] == 0
    decreases |ks|
  {
    if |ks| > 0 {
      SumZero(ks[..|ks| - 1]);
      assert forall j :: 0 <= j < |ks| - 1 ==> ks[..|ks| - 1][j] == ks[j];
    }
  }

  /** A total of counts that are all 0 is 0. */
  lemma {:induction false} SumAllZero(ks: seq<nat>)
    ensures (forall j :: 0 <= j < |ks| ==> ks[j] == 0) ==> Sum(ks) == 0
    decreases |ks|
  {
    if |ks| > 0 {
      SumAllZero(ks[..|ks| - 1]);
      assert forall j :: 0 <= j < |ks| - 1 ==> ks[..|ks| - 1][j] == ks[j];
    }
  }

  /**
   The dial values after dial `j` takes `ks[j]` nudges of one unit in the
   direction `up` selects, for every `j` in turn.
   */
  function MoveDials(values: seq<int>, ks: seq<nat>, up: bool): (r: seq<int>)
    requires |ks| <= |values|
    ensures |r| == |values|
    ensures forall j :: |ks| <= j < |values| ==> r[j] == values[j]
    decreases |ks|
  {
    if |ks| == 0 then values
    else
      var j := |ks| - 1;
      NudgeTimes(MoveDials(values, ks[..j], up), j, up, ks[j])
  }

  /**
   Dial `k` moves by its own step count `ks[k]` in the direction `up`
   selects, modulo 10, and stays as it is when that count is 0.
   */
  lemma {:induction false} MoveDialsMovesDial(values: seq<int>, ks: seq<nat>, up: bool, k: nat)
    requires k < |ks| <= |values|
    ensures IsDigit(values[k]) ==> MoveDials(values, ks, up)[k] == WrapDigit(values[k] + Displacement(up, ks[k]))
    ensures ks[k] == 0 ==> MoveDials(values, ks, up)[k] == values[k]
    decreases |ks|
  {
    var j := |ks| - 1;
    var before := MoveDials(values, ks[..j], up);
    if k < j {
      MoveDialsMovesDial(values, ks[..j], up, k);
      assert ks[..j][k] == ks[k];
    } else if IsDigit(values[k]) {
      NudgeTimesMovesDial(before, j, up, ks[j]);
    }
  }

  /** In-range dials stay in range. */
  lemma {:induction false} MoveDialsKeepsDigits(values: seq<int>, ks: seq<nat>, up: bool)
    requires |ks| <= |values|
    ensures AllDigits(values) ==> AllDigits(MoveDials(values, ks, up))
  {
    var r := MoveDials(values, ks, up);
    if AllDigits(values) {
      forall k | 0 <= k < |r|
        ensures IsDigit(r[k])
      {
        if k < |ks| {
          MoveDialsMovesDial(values, ks, up, k);
        }
      }
    }
  }

  /** Every dial moves by its own step count, as `MoveDialsMovesDial` states for one. */
  lemma MoveDialsMovesDials(values: seq<int>, ks: seq<nat>, up: bool)
    requires |ks| <= |values|
    ensures var r := MoveDials(values, ks, up);
            && (forall j :: 0 <= j < |ks| && IsDigit(values[j]) ==>
                  r[j] == WrapDigit(values[j] + Displacement(up, ks[j])))
            && (forall j :: 0 <= j < |ks| && ks[j] == 0 ==> r[j] == values[j])
  {
    forall j | 0 <= j < |ks| {
      MoveDialsMovesDial(values, ks, up, j);
    }
  }

  /** The steps each button of a row takes in one millisecond. */
  function StepsOf(bs: seq<Button>): (r: seq<nat>)
    ensures |r| == |bs|
    ensures forall j :: 0 <= j < |bs| ==> r[j] == Hold.Tick(bs[j]).steps
  {
    seq(|bs|, j requires 0 <= j < |bs| => Hold.Tick(bs[j]).steps)
  }

  /**
   The lock after dial `j` takes `ks[j]` steps of one unit in the direction
   `up` selects, each followed by the comparison. Each comparison overwrites
   the unlocked state, so after any step it is the comparison on the final
   values; with no step the lock is as it was.
   */
  function StepRow(lock: Lock, ks: seq<nat>, up: bool): (r: Lock)
    requires |ks| <= |lock.values|
    ensures |r.values| == |lock.values|
    ensures forall j :: |ks| <= j < |lock.values| ==> r.values[j] == lock.values[j]
    ensures forall j :: 0 <= j < |ks| && ks[j] == 0 ==> r.values[j] == lock.values[j]
    ensures Sum(ks) == 0 ==> r == lock
    ensures Sum(ks) > 0 ==> r.unlocked == CheckUnlock(r.values)
    ensures Sound(lock) ==> Sound(r)
    ensures AllDigits(lock.values) ==> AllDigits(r.values)
  {
    MoveDialsMovesDials(lock.values, ks, up);
    MoveDialsKeepsDigits(lock.values, ks, up);
    SumZero(ks);
    if Sum(ks) == 0 then lock else Check(Lock(MoveDials(lock.values, ks, up), lock.unlocked))
  }

  /** Dial `j` moves by its own step count in the direction `up` selects, modulo 10. */
  lemma StepRowMovesDial(lock: Lock, ks: seq<nat>, up: bool, j: nat)
    requires j < |ks| <= |lock.values|
    ensures IsDigit(lock.values[j]) ==>
              StepRow(lock, ks, up).values[j] == WrapDigit(lock.values[j] + Displacement(up, ks[j]))
  {
    MoveDialsMovesDial(lock.values, ks, up, j);
    SumZero(ks);
  }

  /** Each button of a row one millisecond later. */
  function NextButtons(bs: seq<Button>): (r: seq<Button>)
    ensures |r| == |bs|
    ensures forall j :: 0 <= j < |bs| ==> r[j] == Hold.Tick(bs[j]).button
  {
    seq(|bs|, j requires 0 <= j < |bs| => Hold.Tick(bs[j]).button)
  }

  /**
   One millisecond for the row of up buttons (`up`) or of down buttons: each
   button's timers advance, and every step a button takes moves its own dial
   by one unit in the button's direction, modulo 10, and is followed by the
   comparison.
   */
  function TickRow(lock: Lock, bs: seq<Button>, up: bool): (r: Ticked)
    requires |bs| <= |lock.values|
    ensures |r.lock.values| == |lock.values| && |r.buttons| == |bs|
    ensures forall j :: 0 <= j < |bs| ==> r.buttons[j] == Hold.Tick(bs[j]).button
    ensures forall j :: |bs| <= j < |lock.values| ==> r.lock.values[j] == lock.values[j]
    ensures forall j :: 0 <= j < |bs| && Hold.Tick(bs[j]).steps == 0 ==> r.lock.values[j] == lock.values[j]
    ensures r.steps == 0 <==> forall j :: 0 <= j < |bs| ==> Hold.Tick(bs[j]).steps == 0
    ensures r.steps == 0 ==> r.lock == lock
    ensures r.steps > 0 ==> r.lock.unlocked == CheckUnlock(r.lock.values)
    ensures Sound(lock) ==> Sound(r.lock)
    ensures AllDigits(lock.values) ==> AllDigits(r.lock.values)
  {
    var ks := StepsOf(bs);
    SumZero(ks);
    SumAllZero(ks);
    Ticked(StepRow(lock, ks, up), NextButtons(bs), Sum(ks))
  }

  /**
   One millisecond moves an in-range dial by the steps its own button in the
   row takes, in that button's direction, modulo 10.
   */
  lemma TickRowMovesDial(lock: Lock, bs: seq<Button>, up: bool, j: nat)
    requires j < |bs| <= |lock.values|
    ensures IsDigit(lock.values[j]) ==>
              TickRow(lock, bs, up).lock.values[j] == WrapDigit(lock.values[j] + Displacement(up, Hold.Tick(bs[j]).steps))
  {
    var ks := StepsOf(bs);
    assert TickRow(lock, bs, up).lock == StepRow(lock, ks, up);
    assert ks[j] == Hold.Tick(bs[j]).steps;
    StepRowMovesDial(lock, ks, up, j);
  }

  /** `TickRowMovesDial` for every dial of the row. */
  lemma TickRowMovesDials(lock: Lock, bs: seq<Button>, up: bool)
    requires |bs| <= |lock.values|
    ensures forall j :: 0 <= j < |bs| && IsDigit(lock.values[j]) ==>
              TickRow(lock, bs, up).lock.values[j] == WrapDigit(lock.values[j] + Displacement(up, Hold.Tick(bs[j]).steps))
  {
    forall j | 0 <= j < |bs|
      ensures IsDigit(lock.values[j]) ==>
                TickRow(lock, bs, up).lock.values[j] == WrapDigit(lock.values[j] + Displacement(up, Hold.Tick(bs[j]).steps))
    {
      TickRowMovesDial(lock, bs, up, j);
    }
  }

  /** Steps of one unit keep every dial in range. */
  lemma RepeatKeepsDigits(lock: Lock, i: nat, up: bool, k: nat)
    requires i < |lock.values|
    ensures AllDigits(lock.values) ==> AllDigits(Repeat(lock, i, up, k).values)
  {
    if AllDigits(lock.values) {
      RepeatMovesDial(lock, i, up, k);
    }
  }

  /** Steps of one unit move an in-range dial by their displacement, modulo 10. */
  lemma RepeatMovesDigit(lock: Lock, i: nat, up: bool, k: nat)
    requires i < |lock.values|
    ensures IsDigit(lock.values[i]) ==>
              Repeat(lock, i, up, k).values[i] == WrapDigit(lock.values[i] + Displacement(up, k))
  {
    if IsDigit(lock.values[i]) {
      RepeatMovesDial(lock, i, up, k);
    }
  }

  /** One button pressed, released or ticked, and the steps it takes applied to its dial. */
  function ButtonOut(p: Page, i: nat, up: bool, o: Out): (r: Page)
    requires WellFormed(p) && i < CODE_LENGTH
    ensures WellFormed(r) && r.drags == p.drags
  {
    var lock := Repeat(p.lock, i, up, o.steps);
    if up then Page(lock, p.drags, p.ups[i := o.button], p.downs)
    else Page(lock, p.drags, p.ups, p.downs[i := o.button])
  }

  /** The button `up` selects under dial `i`. */
  function ButtonAt(p: Page, i: nat, up: bool): Button
    requires WellFormed(p) && i < CODE_LENGTH
  {
    if up then p.ups[i] else p.downs[i]
  }

  /**
   One millisecond of the page clock: the up buttons tick and move their
   dials, then the down buttons do. Every button's timers advance as
   `Hold.Tick` says; when no button takes a step the dials and the unlocked
   state stay as they were, and otherwise the unlocked state is the
   comparison on the new dials, even when the steps cancel out.
   */
  function TickPage(p: Page): (r: Page)
    requires WellFormed(p)
    ensures WellFormed(r) && r.drags == p.drags
    ensures forall j :: 0 <= j < CODE_LENGTH ==>
              r.ups[j] == Hold.Tick(p.ups[j]).button && r.downs[j] == Hold.Tick(p.downs[j]).button
    ensures (forall j :: 0 <= j < CODE_LENGTH ==> Hold.Tick(p.ups[j]).steps == 0 && Hold.Tick(p.downs[j]).steps == 0)
              ==> r.lock == p.lock
    ensures (exists j :: 0 <= j < CODE_LENGTH && (Hold.Tick(p.ups[j]).steps > 0 || Hold.Tick(p.downs[j]).steps > 0))
              ==> r.lock.unlocked == CheckUnlock(r.lock.values)
    ensures r.lock != p.lock ==> r.lock.unlocked == CheckUnlock(r.lock.values)
    ensures Sound(p.lock) ==> Sound(r.lock)
    ensures AllDigits(p.lock.values) ==> AllDigits(r.lock.values)
  {
    var u := TickRow(p.lock, p.ups, true);
    var d := TickRow(u.lock, p.downs, false);
    Page(d.lock, p.drags, u.buttons, d.buttons)
  }

  /** The page after one event, as the handler registered for it leaves it. */
  function Handle(p: Page, ev: Event): (r: Page)
    requires WellFormed(p) && ValidEvent(ev)
    ensures WellFormed(r)
    ensures Sound(p.lock) ==> Sound(r.lock)
  {
    match ev
    case Wheel(i, deltaY) => p.(lock := OnWheel(p.lock, i, deltaY))
    case KeyDown(i, key) => p.(lock := OnKey(p.lock, i, key))
    case DialClick(i, target) => p.(lock := OnClick(p.lock, i, target))
    case DialPointerDown(i, y) => p.(drags := p.drags[i := PointerDown(y)])
    case DialPointerMove(i, y) =>
      var s := OnPointerMove(p.lock, p.drags[i], i, y);
      p.(lock := s.lock, drags := p.drags[i := s.drag])
    case DialPointerEnd(i) => p.(drags := p.drags[i := PointerEnd(p.drags[i])])
    case ButtonDown(i, up) =>
      ButtonOut(p, i, up, Out(Press(ButtonAt(p, i, up)), 0))
    case ButtonRelease(i, up) => ButtonOut(p, i, up, Release(ButtonAt(p, i, up)))
    case Tick => TickPage(p)
    case Shuffle(draws) => p.(lock := Check(Lock(Randomize(p.lock.values, draws), p.lock.unlocked)))
    case Share => p
  }

  /** The code `copyShare` puts in the link it copies. */
  function ShareCode(p: Page): string {
    Serialize(p.lock.values)
  }

  /**
   Every event that moves a dial is followed by the comparison: whenever the
   values change, the unlocked state is the comparison of the new values.
   */
  lemma ChangeIsChecked(p: Page, ev: Event)
    requires WellFormed(p) && ValidEvent(ev)
    ensures Handle(p, ev).lock.values != p.lock.values ==>
              (Handle(p, ev).lock.unlocked <==> Handle(p, ev).lock.values == TARGET_CODE)
  {
    var r := Handle(p, ev);
    match ev
    case Tick =>
      var u := TickRow(p.lock, p.ups, true);
      var d := TickRow(u.lock, p.downs, false);
      if d.steps == 0 && u.steps == 0 {
        assert r.lock == p.lock;
      }
    case _ =>
  }

  /**
   The events of one dial and its buttons leave every other dial alone, and
   pressing a button, dragging without steps, ending a drag and sharing move
   no dial at all.
   */
  lemma OtherDialsUnchanged(p: Page, ev: Event)
    requires WellFormed(p) && ValidEvent(ev)
    requires !ev.Tick? && !ev.Shuffle? && !ev.Share?
    ensures forall j :: 0 <= j < CODE_LENGTH && j != ev.i ==> Handle(p, ev).lock.values[j] == p.lock.values[j]
    ensures ev.DialPointerDown? || ev.DialPointerEnd? || ev.ButtonDown? ==> Handle(p, ev).lock == p.lock
  {
  }

  /** Sharing changes nothing on the page. */
  lemma ShareChangesNothing(p: Page)
    requires WellFormed(p)
    ensures Handle(p, Share) == p
  {
  }

  /**
   Every event except a drag move keeps in-range dials in range: the
   buttons, keys, wheel and clicks step by one, and a shuffle draws digits.
   */
  lemma DigitsStayInRange(p: Page, ev: Event)
    requires WellFormed(p) && ValidEvent(ev) && AllDigits(p.lock.values)
    requires !ev.DialPointerMove?
    ensures AllDigits(Handle(p, ev).lock.values)
  {
    match ev
    case Wheel(i, deltaY) => NudgeKeepsDigits(p.lock.values, i, WheelStep(deltaY));
    case KeyDown(i, key) =>
      NudgeKeepsDigits(p.lock.values, i, 1);
      NudgeKeepsDigits(p.lock.values, i, -1);
    case DialClick(i, target) => NudgeKeepsDigits(p.lock.values, i, ClickStep(target));
    case ButtonDown(i, up) =>
    case ButtonRelease(i, up) => RepeatKeepsDigits(p.lock, i, up, Release(ButtonAt(p, i, up)).steps);
    case _ =>
  }

  /**
   A drag move does not: from any well-formed page whose first dial shows 0,
   a drag that starts at 0 and moves to 198 leaves that dial at -1, and the
   share link then carries a code the page will not accept.
   */
  lemma DragMoveLeavesRange(p: Page)
    requires WellFormed(p) && p.lock.values[0] == 0
    ensures var dragged := Handle(Handle(p, DialPointerDown(0, 0)), DialPointerMove(0, 198));
            dragged.lock.values[0] == -1 && !MatchesCode(ShareCode(dragged))
  {
    var down := Handle(p, DialPointerDown(0, 0));
    DragCanLeaveRange(down.lock, 0);
    var dragged := Handle(down, DialPointerMove(0, 198));
    ShareableIffDigits(dragged.lock.values);
  }

  /**
   Loading the page with the right code sets the dials to it but does not
   unlock: nothing runs the comparison until the first gesture, and Enter on
   any dial then unlocks.
   */
  lemma LoadWithTargetStaysLocked()
    ensures var p := Init(Some("09546"));
            p.lock.values == TARGET_CODE && !p.lock.unlocked &&
            Handle(p, KeyDown(0, "Enter")).lock.unlocked
  {
    var p := Init(Some("09546"));
    assert MatchesCode("09546");
    assert p.lock.values == TARGET_CODE by {
      forall k | 0 <= k < CODE_LENGTH
        ensures p.lock.values[k] == TARGET_CODE[k]
      {
        assert DigitChar(p.lock.values[k]) == "09546"[k];
      }
    }
  }

  /** A link shared from in-range dials loads a page showing the same dials. */
  lemma ShareLinkRestores(p: Page)
    requires WellFormed(p) && AllDigits(p.lock.values)
    ensures Init(Some(ShareCode(p))).lock.values == p.lock.values
  {
    ShareRoundTrip(p.lock.values, [0, 0, 0, 0, 0]);
  }

  /** `n` milliseconds passing on the page: `n` `Tick` events, as `TicksAreEvents` states. */
  function Ticks(p: Page, n: nat): (r: Page)
    requires WellFormed(p)
    ensures WellFormed(r)
    decreases n
  {
    if n == 0 then p else TickPage(Ticks(p, n - 1))
  }

  /** Each millisecond of `Ticks` is one `Tick` event handled by the page. */
  lemma TicksAreEvents(p: Page, n: nat)
    requires WellFormed(p) && n > 0
    ensures Ticks(p, n) == Handle(Ticks(p, n - 1), Tick)
  {
    HandleTick(Ticks(p, n - 1));
  }

  /** No button on the page has a timer pending. */
  predicate ButtonsIdle(p: Page) {
    && (forall j :: 0 <= j < |p.ups| ==> Idle(p.ups[j]))
    && (forall j :: 0 <= j < |p.downs| ==> Idle(p.downs[j]))
  }

  /** The page clock's event is `TickPage`. */
  lemma HandleTick(q: Page)
    requires WellFormed(q)
    ensures Handle(q, Tick) == TickPage(q)
  {
    var ev: Event := Tick;
    assert Handle(q, ev) == TickPage(q);
  }

  /** `pointerdown` on a button arms it. */
  lemma HandleDown(q: Page, i: nat, up: bool)
    requires WellFormed(q) && i < CODE_LENGTH
    ensures Handle(q, ButtonDown(i, up)) == ButtonOut(q, i, up, Out(Press(ButtonAt(q, i, up)), 0))
  {
    var ev: Event := ButtonDown(i, up);
    assert Handle(q, ev) == ButtonOut(q, i, up, Out(Press(ButtonAt(q, i, up)), 0));
  }

  /** `pointerup`, `pointerleave` or `pointercancel` on a button releases it. */
  lemma HandleRelease(q: Page, i: nat, up: bool)
    requires WellFormed(q) && i < CODE_LENGTH
    ensures Handle(q, ButtonRelease(i, up)) == ButtonOut(q, i, up, Release(ButtonAt(q, i, up)))
  {
    var ev: Event := ButtonRelease(i, up);
    assert Handle(q, ev) == ButtonOut(q, i, up, Release(ButtonAt(q, i, up)));
  }

  /** Dials with no steps to take stay as they are. */
  lemma {:induction false} MoveDialsNone(values: seq<int>, ks: seq<nat>, up: bool)
    requires |ks| <= |values|
    requires forall j :: 0 <= j < |ks| ==> ks[j] == 0
    ensures MoveDials(values, ks, up) == values
    decreases |ks|
  {
    if |ks| > 0 {
      var j := |ks| - 1;
      assert forall k :: 0 <= k < j ==> ks[..j][k] == ks[k];
      MoveDialsNone(values, ks[..j], up);
    }
  }

  /** When only dial `i` has steps to take, the row is `ks[i]` nudges of dial `i`. */
  lemma {:induction false} MoveDialsOne(values: seq<int>, ks: seq<nat>, up: bool, i: nat)
    requires i < |ks| <= |values|
    requires forall j :: 0 <= j < |ks| && j != i ==> ks[j] == 0
    ensures MoveDials(values, ks, up) == NudgeTimes(values, i, up, ks[i])
    decreases |ks|
  {
    var j := |ks| - 1;
    assert forall k :: 0 <= k < j ==> ks[..j][k] == ks[k];
    if j == i {
      MoveDialsNone(values, ks[..j], up);
    } else {
      MoveDialsOne(values, ks[..j], up, i);
    }
  }

  /** A row whose buttons are all idle neither changes nor moves anything in a millisecond. */
  lemma TickRowIdle(lock: Lock, bs: seq<Button>, up: bool)
    requires |bs| <= |lock.values|
    requires forall j :: 0 <= j < |bs| ==> Idle(bs[j])
    ensures TickRow(lock, bs, up).buttons == bs
    ensures TickRow(lock, bs, up).lock.values == lock.values
  {
    forall j | 0 <= j < |bs|
      ensures Hold.Tick(bs[j]) == Out(bs[j], 0)
    {
      IdleTick(bs[j]);
    }
  }

  /** When only dial `i` has steps to take, the row's steps are that dial's. */
  lemma StepRowOne(lock: Lock, ks: seq<nat>, up: bool, i: nat)
    requires i < |ks| <= |lock.values|
    requires forall j :: 0 <= j < |ks| && j != i ==> ks[j] == 0
    ensures StepRow(lock, ks, up).values == NudgeTimes(lock.values, i, up, ks[i])
  {
    MoveDialsOne(lock.values, ks, up, i);
    SumZero(ks);
  }

  /**
   A row in which only button `i` may have a timer pending: that button
   takes its own millisecond and its dial takes that millisecond's steps.
   */
  lemma TickRowOneActive(lock: Lock, bs: seq<Button>, up: bool, i: nat)
    requires |bs| <= |lock.values| && i < |bs|
    requires forall j :: 0 <= j < |bs| && j != i ==> Idle(bs[j])
    ensures TickRow(lock, bs, up).buttons == bs[i := Hold.Tick(bs[i]).button]
    ensures TickRow(lock, bs, up).lock.values == NudgeTimes(lock.values, i, up, Hold.Tick(bs[i]).steps)
  {
    IdleRowQuiet(bs, i);
    TickRowOneDial(lock, bs, up, i);
  }

  /** Every idle button of a row takes its millisecond without change or step. */
  lemma IdleRowQuiet(bs: seq<Button>, i: nat)
    requires i < |bs|
    requires forall j :: 0 <= j < |bs| && j != i ==> Idle(bs[j])
    ensures forall j :: 0 <= j < |bs| && j != i ==> Hold.Tick(bs[j]) == Out(bs[j], 0)
  {
    forall j | 0 <= j < |bs| && j != i
      ensures Hold.Tick(bs[j]) == Out(bs[j], 0)
    {
      IdleTick(bs[j]);
    }
  }

  /** The dials of a row in which only button `i` steps: dial `i` takes that button's steps. */
  lemma TickRowOneDial(lock: Lock, bs: seq<Button>, up: bool, i: nat)
    requires |bs| <= |lock.values| && i < |bs|
    requires forall j :: 0 <= j < |bs| && j != i ==> Hold.Tick(bs[j]).steps == 0
    ensures TickRow(lock, bs, up).lock.values == NudgeTimes(lock.values, i, up, Hold.Tick(bs[i]).steps)
  {
    var ks := StepsOf(bs);
    StepRowOne(lock, ks, up, i);
  }

  /**
   One millisecond on a page where only the button `up` selects under dial
   `i` may have a timer pending: that button takes its millisecond, its dial
   takes the steps, and nothing else changes.
   */
  lemma TickPageOneActive(q: Page, i: nat, up: bool)
    requires WellFormed(q) && i < CODE_LENGTH
    requires forall j :: 0 <= j < CODE_LENGTH && (j != i || !up) ==> Idle(q.ups[j])
    requires forall j :: 0 <= j < CODE_LENGTH && (j != i || up) ==> Idle(q.downs[j])
    ensures var t := Hold.Tick(ButtonAt(q, i, up));
            && TickPage(q).ups == (if up then q.ups[i := t.button] else q.ups)
            && TickPage(q).downs == (if up then q.downs else q.downs[i := t.button])
            && TickPage(q).lock.values == NudgeTimes(q.lock.values, i, up, t.steps)
  {
    var u := TickRow(q.lock, q.ups, true);
    if up {
      TickRowOneActive(q.lock, q.ups, true, i);
      TickRowIdle(u.lock, q.downs, false);
    } else {
      TickRowIdle(q.lock, q.ups, true);
      TickRowOneActive(u.lock, q.downs, false, i);
    }
  }

  /**
   `q` is the page `p` partway through a press of the button `up` selects
   under dial `i`: that button stands at `o.button`, its dial has taken the
   `o.steps` steps so far, and every other button and dial is as it was.
   */
  predicate Holding(p: Page, q: Page, i: nat, up: bool, o: Out)
    requires WellFormed(p) && i < CODE_LENGTH
  {
    && q.ups == (if up then p.ups[i := o.button] else p.ups)
    && q.downs == (if up then p.downs else p.downs[i := o.button])
    && q.lock.values == NudgeTimes(p.lock.values, i, up, o.steps)
  }

  /** `pointerdown` on a button of a page with every button idle starts a press. */
  lemma DownStartsHolding(p: Page, i: nat, up: bool)
    requires WellFormed(p) && i < CODE_LENGTH && ButtonsIdle(p)
    ensures Holding(p, Handle(p, ButtonDown(i, up)), i, up, Pressed(0))
  {
    HandleDown(p, i, up);
    var q := ButtonOut(p, i, up, Out(Press(ButtonAt(p, i, up)), 0));
    assert q.lock == p.lock;
    assert ButtonAt(q, i, up) == Press(ButtonAt(p, i, up)) == Pressed(0).button;
  }

  /** Partway through a press on a page that started idle, every other button is still idle. */
  lemma HoldingOthersIdle(p: Page, q: Page, i: nat, up: bool, o: Out)
    requires WellFormed(p) && i < CODE_LENGTH && ButtonsIdle(p)
    requires Holding(p, q, i, up, o)
    ensures forall j :: 0 <= j < CODE_LENGTH && (j != i || !up) ==> Idle(q.ups[j])
    ensures forall j :: 0 <= j < CODE_LENGTH && (j != i || up) ==> Idle(q.downs[j])
  {
  }

  /** One millisecond partway through a press ticks only the pressed button and moves only its dial. */
  lemma TickWhileHoldingRows(p: Page, q: Page, i: nat, up: bool, o: Out)
    requires WellFormed(p) && WellFormed(q) && i < CODE_LENGTH && ButtonsIdle(p)
    requires Holding(p, q, i, up, o)
    ensures var t := Hold.Tick(o.button);
            && TickPage(q).ups == (if up then q.ups[i := t.button] else q.ups)
            && TickPage(q).downs == (if up then q.downs else q.downs[i := t.button])
            && TickPage(q).lock.values == NudgeTimes(q.lock.values, i, up, t.steps)
  {
    HoldingOthersIdle(p, q, i, up, o);
    TickPageOneActive(q, i, up);
  }

  /**
   A page `r` that is `q` one millisecond on, as `TickWhileHoldingRows`
   describes it, is one millisecond further into the press.
   */
  lemma HoldingAdvances(p: Page, q: Page, r: Page, i: nat, up: bool, o: Out)
    requires WellFormed(p) && i < CODE_LENGTH && Holding(p, q, i, up, o)
    requires var t := Hold.Tick(o.button);
             && r.ups == (if up then q.ups[i := t.button] else q.ups)
             && r.downs == (if up then q.downs else q.downs[i := t.button])
             && r.lock.values == NudgeTimes(q.lock.values, i, up, t.steps)
    ensures Holding(p, r, i, up, Later(o))
  {
    var t := Hold.Tick(o.button);
    NudgeTimesAdd(p.lock.values, i, up, o.steps, t.steps);
    if up {
      assert p.ups[i := o.button][i := t.button] == p.ups[i := t.button];
    } else {
      assert p.downs[i := o.button][i := t.button] == p.downs[i := t.button];
    }
  }

  /** A millisecond of the page clock advances the press and moves only its dial. */
  lemma TickWhileHolding(p: Page, q: Page, i: nat, up: bool, o: Out)
    requires WellFormed(p) && WellFormed(q) && i < CODE_LENGTH && ButtonsIdle(p)
    requires Holding(p, q, i, up, o)
    ensures Holding(p, TickPage(q), i, up, Later(o))
  {
    TickWhileHoldingRows(p, q, i, up, o);
    HoldingAdvances(p, q, TickPage(q), i, up, o);
  }

  /** A millisecond on, a page `n` milliseconds into the press is `n + 1` milliseconds into it. */
  lemma HoldingStep(p: Page, x: Page, q: Page, i: nat, up: bool, o: Out, n: nat)
    requires WellFormed(p) && WellFormed(x) && i < CODE_LENGTH && ButtonsIdle(p)
    requires q == Ticks(x, n) && o == Pressed(n) && Holding(p, q, i, up, o)
    ensures Holding(p, Ticks(x, n + 1), i, up, Pressed(n + 1))
  {
    TickWhileHolding(p, q, i, up, o);
    PressedTick(n);
  }

  /**
   Once the press has taken a step, the unlocked state is the comparison on
   the dials, and a millisecond on it still is.
   */
  lemma HoldingChecked(p: Page, q: Page, i: nat, up: bool, o: Out)
    requires WellFormed(p) && WellFormed(q) && i < CODE_LENGTH && Holding(p, q, i, up, o)
    requires o.steps > 0 ==> q.lock.unlocked == CheckUnlock(q.lock.values)
    ensures Later(o).steps > 0 ==> TickPage(q).lock.unlocked == CheckUnlock(TickPage(q).lock.values)
  {
    if Hold.Tick(o.button).steps > 0 {
      if up {
        assert Hold.Tick(q.ups[i]).steps > 0;
      } else {
        assert Hold.Tick(q.downs[i]).steps > 0;
      }
    }
  }

  /**
   `x` advanced `k` milliseconds is `k` milliseconds into the press, keeps
   its drags, and has its unlocked state checked once the press has stepped.
   */
  predicate HeldFor(p: Page, x: Page, i: nat, up: bool, k: nat)
    requires WellFormed(p) && WellFormed(x) && i < CODE_LENGTH
  {
    var q := Ticks(x, k);
    && Holding(p, q, i, up, Pressed(k))
    && q.drags == x.drags
    && (Pressed(k).steps > 0 ==> q.lock.unlocked == CheckUnlock(q.lock.values))
  }

  /** One more millisecond of a press keeps `HeldFor`. */
  lemma HeldForStep(p: Page, x: Page, i: nat, up: bool, k: nat)
    requires WellFormed(p) && WellFormed(x) && i < CODE_LENGTH && ButtonsIdle(p)
    requires HeldFor(p, x, i, up, k)
    ensures HeldFor(p, x, i, up, k + 1)
  {
    HoldingStep(p, x, Ticks(x, k), i, up, Pressed(k), k);
    HoldingChecked(p, Ticks(x, k), i, up, Pressed(k));
  }

  /**
   `n` milliseconds after a press starts the page is `n` milliseconds into
   it, no drag has changed, and once the press has stepped the unlocked
   state is the comparison on the dials.
   */
  lemma HoldingTicks(p: Page, x: Page, i: nat, up: bool, n: nat)
    requires WellFormed(p) && WellFormed(x) && i < CODE_LENGTH && ButtonsIdle(p)
    requires Holding(p, x, i, up, Pressed(0))
    ensures Holding(p, Ticks(x, n), i, up, Pressed(n))
    ensures Ticks(x, n).drags == x.drags
    ensures Pressed(n).steps > 0 ==> Ticks(x, n).lock.unlocked == CheckUnlock(Ticks(x, n).lock.values)
  {
    var k := 0;
    while k < n
      invariant k <= n && HeldFor(p, x, i, up, k)
    {
      HeldForStep(p, x, i, up, k);
      k := k + 1;
    }
  }

  /**
   Releasing the button partway through a press leaves its dial moved by the
   steps of the whole press and every button idle.
   */
  lemma ReleaseEndsHolding(p: Page, q: Page, r: Page, i: nat, up: bool, n: nat)
    requires WellFormed(p) && WellFormed(q) && i < CODE_LENGTH && ButtonsIdle(p)
    requires Holding(p, q, i, up, Pressed(n))
    requires r == ButtonOut(q, i, up, Release(ButtonAt(q, i, up)))
    ensures r.lock.values == NudgeTimes(p.lock.values, i, up, PressSteps(n))
    ensures ButtonsIdle(r)
  {
    var released := Release(Pressed(n).button);
    PressedRelease(n);
    NudgeTimesAdd(p.lock.values, i, up, Pressed(n).steps, released.steps);
  }

  /** `ReleaseEndsHolding` read dial by dial: the pressed dial moved modulo 10 when in range, the others unchanged. */
  lemma ReleaseMovesDials(p: Page, q: Page, r: Page, i: nat, up: bool, n: nat)
    requires WellFormed(p) && WellFormed(q) && i < CODE_LENGTH && ButtonsIdle(p)
    requires Holding(p, q, i, up, Pressed(n))
    requires r == ButtonOut(q, i, up, Release(ButtonAt(q, i, up)))
    ensures IsDigit(p.lock.values[i]) ==>
              r.lock.values[i] == WrapDigit(p.lock.values[i] + Displacement(up, PressSteps(n)))
    ensures forall j :: 0 <= j < CODE_LENGTH && j != i ==> r.lock.values[j] == p.lock.values[j]
  {
    ReleaseEndsHolding(p, q, r, i, up, n);
    NudgedDials(p.lock.values, r.lock.values, i, up, PressSteps(n));
  }

  /** Dials `k` nudges on from `before`: dial `i` moved by their displacement when in range, the rest unchanged. */
  lemma NudgedDials(before: seq<int>, after: seq<int>, i: nat, up: bool, k: nat)
    requires i < |before| && after == NudgeTimes(before, i, up, k)
    ensures IsDigit(before[i]) ==> after[i] == WrapDigit(before[i] + Displacement(up, k))
    ensures forall j :: 0 <= j < |before| && j != i ==> after[j] == before[j]
  {
    if IsDigit(before[i]) {
      NudgeTimesMovesDial(before, i, up, k);
    }
  }

  /**
   A press of one button on a page with every button idle, held for `n`
   milliseconds of the page clock and then released: that button's dial has
   taken `PressSteps(n)` one-unit steps in its direction, so an in-range dial
   has moved by that many modulo 10; every other dial is as it was, and every
   button is idle again.
   */
  lemma PressHoldRelease(p: Page, i: nat, up: bool, n: nat)
    requires WellFormed(p) && i < CODE_LENGTH && ButtonsIdle(p)
    ensures var r := Handle(Ticks(Handle(p, ButtonDown(i, up)), n), ButtonRelease(i, up));
            && r.lock.values == NudgeTimes(p.lock.values, i, up, PressSteps(n))
            && (IsDigit(p.lock.values[i]) ==>
                  r.lock.values[i] == WrapDigit(p.lock.values[i] + Displacement(up, PressSteps(n))))
            && (forall j :: 0 <= j < CODE_LENGTH && j != i ==> r.lock.values[j] == p.lock.values[j])
            && ButtonsIdle(r)
  {
    var x := Handle(p, ButtonDown(i, up));
    DownStartsHolding(p, i, up);
    HoldingTicks(p, x, i, up, n);
    var q := Ticks(x, n);
    HandleRelease(q, i, up);
    ReleaseEndsHolding(p, q, Handle(q, ButtonRelease(i, up)), i, up, n);
    ReleaseMovesDials(p, q, Handle(q, ButtonRelease(i, up)), i, up, n);
  }
}

=== FILE: wrappers.dfy ===
/** The optional-value datatype used for query parameters and parse results. */
module Wrappers {

  /** A value that may be absent, as `URLSearchParams.get` returns a string or null. */
  datatype Option<+T> = None | Some(value: T)
}
